=== FILE: README.md ===
# dev-connector request handlers in Dafny

A model of the four controllers of the dev-connector social-profile API:

- registration (`controllers/userController.js`);
- login and the current-user lookup (`controllers/authController.js`);
- profile submission, experience and education entries, and account deletion (`controllers/profileController.js`);
- posts, likes and comments (`controllers/postController.js`).

The document store is three id-keyed maps: users, profiles keyed by their owner, and posts.
Every mutating handler is a pure function from a store and a request to a `Reply`.
A `Reply` pairs the answer (`Ok`, `NotFound`, `Unauthorized`, `Invalid` or `ServerError`) with the store as the handler leaves it.
That makes "an error changes nothing" and "nothing but the caller's record changes" statable, and the contracts state them.
A request the handler does not guard against dereferences null: for example, a missing profile in `updateProfileExperience`, or an unknown post in `likePost` once its query is awaited.
The handler's catch block turns that into a server error, and so does the model.

Modules:

- `Base`: `Option`.
- `Js`: the JavaScript truthiness, `.length` and `> 0` rules that the like guards depend on.
- `Lists`: `Array.prototype.filter`, `find` and `findIndex` on sequences, with their order and membership lemmas.
- `Text`: `split` on one character and ECMAScript `trim`.
- `Model`: the documents, the store, its invariant `Valid`, the reply type, the messages, and the owner-only guard `CanMutate`.
- `Users`, `Auth`, `Profiles`, `Posts`: the handlers.
- `PostsAsWritten`: the like, unlike and comment-deletion handlers exactly as written, beside the intended versions in `Posts` (see Findings).
- `Scenario`: one request sequence across the handlers.

The store invariant `Valid`, which every handler in `Users`, `Auth`, `Profiles` and `Posts` keeps (the adds given an unused entry id): each account, profile and post is filed under its own key, and a profile under its owner, so a user has at most one profile.
No two accounts share an email.
A post has at most one like per user, and comment ids are distinct within a post, as are experience ids and education ids within a profile.

Libraries and generated values are parameters:

- The password library is `Crypto`, a pair of functions (`hash`, `compare`). `Sound` states that a password matches its own hash.
- The avatar-URL library is a function of the email.
- Store-generated ids and creation times are passed in.
- A colliding top-level id is rejected, as the unique `_id` index would reject it.

A resubmission without links clears the stored links, because `social` is rebuilt from the submission and `$set` whole.
Scalars left out of a resubmission keep their stored values, so a merge is not the identity once links were stored.
`Profiles.ResubmitWithoutLinks` states this.

## Model

| member | source | states |
|---|---|---|
| Users.Register | controllers/userController.js:19-44 | A taken email is answered "User already exists" and the store is unchanged. An id collision with a free email is a server error with no change. Otherwise exactly one account is added under the new id, carrying that id, with the submitted name and email, the avatar of the email and the salted hash of the password. The payload carries that id, and profiles and posts are untouched. |
| Users.RegisterKeepsValid | controllers/userController.js:19-38 | Registration keeps the store invariant, in particular that no two accounts share an email. |
| Users.AddUserKeepsUsersValid | controllers/userController.js:19-38 | Adding an account under a new id, with an email no account uses, keeps accounts filed under their ids and emails unique. |
| Users.AvatarFromEmailOnly | controllers/userController.js:28-34 | Two registrations with the same email get the same avatar, whatever their names and passwords. |
| Auth.FindByEmail | controllers/authController.js:28 | Finds an account exactly when one has the email, and the one it finds has that email. |
| Auth.Login | controllers/authController.js:28-48 | Success iff some account has the email and the password matches its hash. Every failure is the same "Invalid credentials". On success the payload is the matched account's id. |
| Auth.LoginFailuresAlike | controllers/authController.js:30-42 | An unknown email and a wrong password give identical answers. |
| Auth.RegisterThenLogin | controllers/authController.js:37-48 | Round trip: after a successful registration, logging in with the same email and password returns the payload registration returned, and the store stays valid. |
| Auth.CurrentUser | controllers/authController.js:11-13 | Returns the caller's id, name, email and avatar, or nothing when the account is gone. |
| Auth.DeletedAccountIsGone | controllers/profileController.js:124-129 | After deleting an account, the current-user lookup answers nothing and no login, with any email and password, yields the deleted id. |
| Auth.CurrentUserHidesPassword | controllers/authController.js:11 | The answer does not depend on the stored password hash. |
| Profiles.IfTruthy | controllers/profileController.js:49-54 | A field is present iff the submitted value is truthy, and then holds it. |
| Profiles.ParseSkills | controllers/profileController.js:55-57 | There is one skill per comma plus one. The i-th skill is the i-th comma-separated piece with its surrounding whitespace trimmed, so skills keep the submitted order, and none has whitespace at either end. |
| Profiles.TrimKeepsCommaFree | controllers/profileController.js:56 | Trimming a piece without a comma gives a string without a comma. |
| Profiles.ParsedSkillsCommaFree | controllers/profileController.js:56 | No parsed skill contains a comma. |
| Profiles.ParseJoinedSkills | controllers/profileController.js:56 | Round trip: trimmed comma-free skills joined by commas parse back to the same list, in order. |
| Profiles.ParsePiecewise | controllers/profileController.js:56 | A string whose pieces trim one by one to a list of skills parses to exactly that list. |
| Profiles.PaddedPiece | controllers/profileController.js:56 | A trimmed comma-free name with whitespace around it has no comma and trims back to the name. |
| Profiles.ParsePadded | controllers/profileController.js:56 | Round trip with padding: comma-free names with any whitespace typed around them, joined by commas, parse back to the names in order. |
| Profiles.ParseSkillsExample | controllers/profileController.js:56 | For any three skill names a, b and c, the submission `a + ", " + b + "," + c + " "` parses to `[a, b, c]`. |
| Profiles.BuildFields | controllers/profileController.js:46-64 | The field set always names the caller. Each scalar is present iff submitted truthy. Skills are present iff submitted and are then the parsed list. `social` holds exactly the truthy links. |
| Profiles.Overlay | controllers/profileController.js:72 | One field under `$set`: the set's value when it has one, the stored value otherwise. |
| Profiles.SetFields | controllers/profileController.js:70-74 | `$set` of a field set: every field the set holds replaces the stored one and every absent field keeps its stored value. `user` and `social` are always replaced, and the id and both entry lists are untouched. |
| Profiles.NewProfile | controllers/profileController.js:79-80 | A new document from the field set alone: the fields the set holds, nothing else, no skills when none were given, and empty entry lists. |
| Profiles.SetFieldsMerges | controllers/profileController.js:46-74 | `$set` of a submission's field set names the caller, takes the submitted status, parsed skills and links, merges the other scalars and keeps the id and the lists. |
| Profiles.NewProfileFromRequest | controllers/profileController.js:46-80 | A new profile made from a submission holds the submitted scalars, the parsed skills and the links, and no entries. |
| Profiles.CreateProfile | controllers/profileController.js:66-82 | An existing profile of the caller is merged in place: submitted scalars replace, absent ones stay, entries keep their lists. Otherwise one new profile is created from the submission alone. Either way the caller ends with exactly one profile and no other record changes. A failure is only an id collision and changes nothing. |
| Profiles.CreateProfileKeepsValid | controllers/profileController.js:67-82 | Create-or-update keeps the invariant: the caller's one profile is filed under its owner and its entry ids stay distinct. |
| Profiles.ResubmitWithoutLinks | controllers/profileController.js:59-74 | Resubmitting with no links drops every stored link, while scalars left out keep their stored values. |
| Profiles.RemoveEntry | controllers/profileController.js:175-177 | Keeps exactly the entries with another id. An unknown id leaves the list as it was. |
| Profiles.RemoveEntryKeepsOrder | controllers/profileController.js:175-177 | Removal acts on each part of the list separately, so the kept entries stay in order. |
| Profiles.RemoveEntryIdempotent | controllers/profileController.js:175-177 | Removing twice is removing once. |
| Profiles.RemoveNewEntry | controllers/profileController.js:175-177 | Removing a just-prepended entry whose id is new gives back the old list. |
| Profiles.AddExperience | controllers/profileController.js:151-166 | Without a profile: server error and no change. Otherwise only the caller's experience list changes: it gains the new entry at the front, and the old entries follow unchanged and in order. |
| Profiles.DeleteExperience | controllers/profileController.js:174-182 | Without a profile: server error. Otherwise "Experience deleted", and only the caller's experience list changes: it becomes `RemoveEntry` of the old list, so exactly the entries with another id remain, in their original order. An unknown id changes nothing. |
| Profiles.DeleteExperienceIdempotent | controllers/profileController.js:174-180 | Deleting the same experience twice equals deleting it once. |
| Profiles.AddThenDeleteExperience | controllers/profileController.js:163-180 | Round trip: adding an entry under a new id and deleting it restores the store. |
| Profiles.AddEducation | controllers/profileController.js:204-219 | As AddExperience, for the education list. |
| Profiles.DeleteEducation | controllers/profileController.js:227-235 | As DeleteExperience, for the education list. |
| Profiles.DeleteEducationIdempotent | controllers/profileController.js:227-233 | Deleting the same education twice equals deleting it once. |
| Profiles.AddThenDeleteEducation | controllers/profileController.js:216-233 | Round trip: adding an entry under a new id and deleting it restores the store. |
| Profiles.DeleteProfile | controllers/profileController.js:126-129 | "User deleted". The caller's profile and account are gone, every other user's profile and account are untouched, and posts stay. |
| Profiles.ExperienceKeepsValid | controllers/profileController.js:151-182 | Adding an experience entry under an id no entry of the profile has keeps the entry ids distinct, and so does any deletion. |
| Profiles.EducationKeepsValid | controllers/profileController.js:204-235 | The same for education entries. |
| Profiles.DeleteProfileKeepsValid | controllers/profileController.js:124-129 | Deleting an account keeps the store invariant. |
| Posts.FindPost | controllers/postController.js:62-66 | The awaited lookup finds the post iff its id is stored. |
| Posts.CreatePost | controllers/postController.js:17-28 | Without the author's account, or on an id collision: server error, no change. Otherwise one post is added with the text, the caller as owner, the author's name and avatar, the creation time, and no likes or comments. Nothing else changes. |
| Posts.DeletePost | controllers/postController.js:62-75 | An absent post is "Post not found", checked before ownership. A non-owner gets "User not authorized" and nothing changes. Only the owner removes the post, and only that post. |
| Posts.LikeWith | controllers/postController.js:84-102 | The like handler body for a given lookup result and guard: a pending query or a missing post is a server error with no change, a guard that holds answers "Post already liked" with no change, and otherwise the caller's like is prepended to that post alone. |
| Posts.UnlikeWith | controllers/postController.js:104-122 | The unlike handler body: a pending query or a missing post is a server error, a guard that fails answers "Post not liked yet", and otherwise the post's likes become those not by the caller, in order. |
| Posts.LikePost | controllers/postController.js:86-98 | An unknown post is a server error. A second like is rejected with "Post already liked" and changes nothing. Otherwise the caller's like is prepended and nothing else changes. |
| Posts.UnlikePost | controllers/postController.js:106-122 | "Post not liked yet" iff the caller has no like, with no change. Otherwise the likes become `Filter` of the old ones by "not the caller": exactly the other users' likes remain, in their original order, none by the caller, so the list shrinks. |
| Posts.UnlikeKeepsOrder | controllers/postController.js:115-117 | Unliking acts on each part of the list separately, so the remaining likes keep their order. |
| Posts.UnlikeFreshLike | controllers/postController.js:95-117 | Removing the caller's likes from a list with the caller's like in front and none behind gives back the list behind. |
| Posts.LikeThenUnlike | controllers/postController.js:95-117 | Round trip: liking and then unliking a post the caller had not liked restores the store and answers with the original likes. |
| Posts.CreateComment | controllers/postController.js:135-148 | Without the account or the post: server error. Otherwise a comment with the text, the author's name and avatar and the caller is prepended, the list grows by one, and the rest is unchanged. |
| Posts.DeleteComment | controllers/postController.js:156-182 | Checks in order: "Post not found", then "Comment not found" when no comment has the id, then "User not authorized" when the caller is not that comment's author. On success the comments become `Filter` of the old ones by "another id": exactly those remain, in their original order. |
| Posts.DeleteCommentRemovesOne | controllers/postController.js:175-179 | With distinct comment ids, a successful deletion removes exactly one comment. |
| Posts.PostLifecycleKeepsValid | controllers/postController.js:17-75 | Creating and deleting posts keep the store invariant. |
| Posts.LikesKeepValid | controllers/postController.js:86-120 | Liking and unliking keep at most one like per user per post. |
| Posts.CommentsKeepValid | controllers/postController.js:135-180 | Commenting under a new id and deleting any comment keep comment ids distinct. |
| Js.Length | controllers/postController.js:88 | A boolean or number has no `length`. |
| Js.BoolLengthNeverPositive | controllers/postController.js:88 | `(boolean).length > 0` is false for either boolean. |
| PostsAsWritten.LikeTestAsWritten | controllers/postController.js:88 | The literal like callback accepts no like at all. |
| PostsAsWritten.LikedAsWritten | controllers/postController.js:87-91 | The literal guard value holds for every list of likes and every caller. |
| PostsAsWritten.LikeGuardAsWritten | controllers/postController.js:87-91 | The literal like test matches nothing, so the filtered list is empty, yet as an array it is truthy. |
| PostsAsWritten.LikeAsWritten | controllers/postController.js:86-87 | `likePost` as written always answers with a server error and changes nothing. |
| PostsAsWritten.LikeAwaited | controllers/postController.js:87-93 | With the query awaited but the literal guard, every existing post answers "Post already liked". |
| PostsAsWritten.UnlikeAsWritten | controllers/postController.js:106-107 | `unlikePost` as written always answers with a server error and changes nothing. |
| PostsAsWritten.UnlikeAwaited | controllers/postController.js:107-122 | With the query awaited but the literal guard, unliking an existing post always succeeds: its likes become those not by the caller, in order, that post is saved with them, the reply carries them, and nothing else changes. An unknown post is a server error with no change. |
| PostsAsWritten.DeleteCommentAsWritten | controllers/postController.js:156-182 | As written: "Comment not found", with no change, iff there are no comments or the id is empty. The post's owner, not the comment's author, is authorised. Success sets the comments to `Filter` of the old ones by "not the caller": every comment by the caller is removed and the others keep their order. |
| PostsAsWritten.CommentTestAsWritten | controllers/postController.js:163 | The assignment-as-test callback accepts every comment when the requested id is non-empty, and none when it is empty. |
| PostsAsWritten.LikeNeverAwaited | controllers/postController.js:86 | A first like, accepted as intended, is a server error as written. |
| PostsAsWritten.UnlikeNeverAwaited | controllers/postController.js:106 | Removing an existing like, accepted as intended, is a server error as written. |
| PostsAsWritten.LikeGuardRejectsFirstLike | controllers/postController.js:88-92 | Even awaited, the literal guard rejects a first like that the intended guard accepts. |
| PostsAsWritten.UnlikeGuardAcceptsMissingLike | controllers/postController.js:108-112 | Even awaited, the literal guard accepts an unlike that the intended guard refuses with "Post not liked yet". |
| PostsAsWritten.CommentLookupMatchesAnyId | controllers/postController.js:162-167 | An id no comment has: "Comment not found" as intended, a deletion as written. |
| PostsAsWritten.CommentAuthorRefused | controllers/postController.js:171-173 | A comment's author on someone else's post may delete it as intended, and is refused as written. |
| PostsAsWritten.PostOwnerDeletesOthersComment | controllers/postController.js:171-180 | The post's owner deletes someone else's comment as written, and is refused as intended. |
| PostsAsWritten.CommentDeletionRemovesAllByCaller | controllers/postController.js:175-179 | Deleting one of the caller's two comments leaves the other as intended, and none as written. |
| Lists.Filter | controllers/postController.js:115-117 | `filter`: the result holds exactly the kept elements and is no longer than the input. |
| Lists.ArrayFilter | controllers/postController.js:115-117 | The step-by-step `filter` loop computes `Filter`. |
| Lists.FindIndex | controllers/postController.js:162-164 | The position at which `find` stops: an accepted element with no accepted element before it, or none when no element is accepted. |
| Lists.Find | controllers/postController.js:162-164 | `find` succeeds iff some element is accepted, and returns the first accepted element. |
| Text.Split | controllers/profileController.js:56 | `split(',')`: one piece per separator plus one, none containing the separator. |
| Text.SplitThenJoin | controllers/profileController.js:56 | Joining the pieces of a split gives back the string. |
| Text.JoinThenSplit | controllers/profileController.js:56 | Splitting a join of separator-free pieces gives back the pieces. |
| Text.Trim | controllers/profileController.js:56 | `trim`: the result has no whitespace at either end and is no longer than the input. |
| Text.TrimIsPaddedInfix | controllers/profileController.js:56 | The result of `trim` is an infix of the input with only whitespace before and after it. |
| Text.TrimPadded | controllers/profileController.js:56 | Conversely, `trim` of a trimmed string with any whitespace around it gives back that string. |
| Text.TrimKeepsTrimmed | controllers/profileController.js:56 | A string without whitespace at either end is left as it is. |
| Text.TrimIdempotent | controllers/profileController.js:56 | Trimming twice is trimming once. |
| Scenario.ParseTwoSkills | controllers/profileController.js:56 | For any two skill names, `first + ", " + second` parses to `[first, second]`. |
| Scenario.RegisterFirst | controllers/userController.js:19-44 | The first registration on an empty store succeeds with the new id, creates one account and no profile. |
| Scenario.FirstProfile | controllers/profileController.js:66-82 | A first profile submission on a store without profiles creates exactly one profile, with no experience and the parsed skills. |
| Scenario.FirstExperience | controllers/profileController.js:151-166 | An experience entry added to a profile without experience becomes its only entry, and nothing else in the profile changes. |
| Scenario.RegisterProfileExperience | controllers/profileController.js:55-166 | Register, submit a profile with skills `first + ", " + second`, add one experience entry. Every step succeeds, and the only profile has exactly that entry and skills `[first, second]`. |

## Left out

- The read-only handlers `getProfile`, `getProfiles`, `getProfileByUser`, `getAllPosts` and `getPostById`. They only look records up, with `populate` and `sort`, which are store features.
- Express routing, the `auth` middleware and `server.js`. The authenticated caller's id is a parameter.
- The route validators are preconditions: non-empty name and a password of at least six characters; status and skills; title, company and from; school, degree, field of study and from; post and comment text. The email-format check is not modelled.
- Mongoose internals: schema type casting, `populate`, `sort({date: -1})`, and ObjectId cast errors (`error.kind`). A malformed id is treated as an absent one.
- bcrypt, jsonwebtoken and gravatar are parameters (`Crypto`, `avatarOf`). The token is its payload; signing, the secret, expiry, and the throw inside the signing callback are not modelled.
- HTTP status codes and response body shapes, beyond the `Status` constructors and message strings.
- Concurrency: overlapping read-modify-write requests and last-write-wins. Each handler is one atomic step on the store.
- Logging and the unused `request` and `config` imports of the post controller.
- The `comment.id = …` assignment inside `find`: its value decides the lookup and is modelled, but the assignment's effect on the comment itself is not modelled.
- Request bodies: every submitted field is a string, and a field left out is the empty string. Other JSON values (arrays, numbers, booleans, such as a non-string `skills` or `status: false`) are not modelled.
- Freshness of generated sub-document ids, for experience, education and comment entries, is not checked by the handlers. The lemmas that need it take it as a hypothesis.
- Auth.Login: requires that emails be unique. `findOne` returns an arbitrary match, and the model picks one only when the match is unique; registration keeps emails unique (`Users.RegisterKeepsValid`).
- Js.Length: numbers are integers; NaN and fractional values never reach the modelled guards. A string's length is counted in characters, not UTF-16 code units; no modelled guard reads it.

## Findings

| source | as written | input that shows it | evidently intended | confidence | as-written member | corrected member |
|---|---|---|---|---|---|---|
| controllers/postController.js:86 | `Post.findById` is not awaited, so `post.likes` is undefined and `.filter` throws | any like of an existing post the caller has not liked | await the query and record the like | not executed | PostsAsWritten.LikeNeverAwaited | Posts.LikePost |
| controllers/postController.js:106 | `Post.findById` is not awaited, so unliking always throws | any unlike of a post the caller has liked | await the query and remove the like | not executed | PostsAsWritten.UnlikeNeverAwaited | Posts.UnlikePost |
| controllers/postController.js:88 | the test takes `.length` of a boolean, so it never matches, and the empty filtered array is truthy | a first like of an existing post | reject only when a like by the caller exists | not executed | PostsAsWritten.LikeGuardRejectsFirstLike | Posts.LikePost |
| controllers/postController.js:108 | the same always-truthy guard, so "Post not liked yet" never occurs | unlike of a post the caller never liked | answer "Post not liked yet" and change nothing | not executed | PostsAsWritten.UnlikeGuardAcceptsMissingLike | Posts.UnlikePost |
| controllers/postController.js:163 | `=` assigns instead of comparing, so the first comment matches any non-empty id | the post owner deletes with an id no comment has | "Comment not found" | not executed | PostsAsWritten.CommentLookupMatchesAnyId | Posts.DeleteComment |
| controllers/postController.js:171 | compares the post's owner with the caller | a comment's author deleting their own comment on another user's post | authorise the comment's author | not executed | PostsAsWritten.CommentAuthorRefused | Posts.DeleteComment |
| controllers/postController.js:171 | compares the post's owner with the caller | the post's owner deleting another user's comment | refuse anyone but the comment's author | not executed | PostsAsWritten.PostOwnerDeletesOthersComment | Posts.DeleteComment |
| controllers/postController.js:175-177 | filters out every comment by the caller, ignoring the id | two comments by the caller, deleting one | remove only the identified comment | not executed | PostsAsWritten.CommentDeletionRemovesAllByCaller | Posts.DeleteComment |

=== FILE: auth.dfy ===
/**
 Login and the current-user lookup (controllers/authController.js).
 */
module Auth {
  import opened Base
  import opened Model
  import opened Users
  import opened Profiles

  /** The account registered under `email`, if any (`User.findOne({email})`).
      Registration keeps emails unique, so there is at most one. */
  function FindByEmail(users: map<UserId, User>, email: string): (r: Option<UserId>)
    requires EmailsUnique(users)
    ensures r.Some? <==> EmailTaken(users, email)
    ensures r.Some? ==> r.value in users && users[r.value].email == email
  {
    if EmailTaken(users, email) then
      var k :| k in users && users[k].email == email;
      Some(k)
    else
      None
  }

  /**
   `loginUser`. An unknown email and a wrong password give the same answer, and
   on success the payload names the matched account. The store is read only.
   */
  function Login(store: Store, email: string, password: string, crypto: Crypto): (r: Status<Payload>)
    requires EmailsUnique(store.users)
    ensures r.Ok? <==> exists k :: k in store.users && store.users[k].email == email
                                  && crypto.compare(password, store.users[k].password)
    ensures !r.Ok? ==> r == Invalid(InvalidCredentials)
    ensures r.Ok? ==> exists k :: k in store.users && store.users[k].email == email
                                && r.body == Payload(TokenUser(store.users[k].id))
  {
    match FindByEmail(store.users, email)
    case None => Invalid(InvalidCredentials)
    case Some(k) =>
      var user := store.users[k];
      if !crypto.compare(password, user.password) then Invalid(InvalidCredentials)
      else Ok(Payload(TokenUser(user.id)))
  }

  /** The two failure causes cannot be told apart: an email nobody registered
      and a registered email with the wrong password get identical answers. */
  lemma LoginFailuresAlike(s1: Store, s2: Store, email: string, pw1: string, pw2: string, crypto: Crypto)
    requires EmailsUnique(s1.users) && EmailsUnique(s2.users)
    requires !EmailTaken(s1.users, email)
    requires forall k :: k in s2.users && s2.users[k].email == email ==> !crypto.compare(pw2, s2.users[k].password)
    ensures Login(s1, email, pw1, crypto) == Login(s2, email, pw2, crypto)
  {
  }

  /** Round trip: once registration succeeds, logging in with the same email and
      password yields the payload registration returned. */
  lemma RegisterThenLogin(store: Store, name: string, email: string, password: string, salt: Salt,
                          crypto: Crypto, avatarOf: string -> string, freshId: UserId)
    requires Valid(store) && Sound(crypto)
    requires name != "" && |password| >= 6
    requires Register(store, name, email, password, salt, crypto, avatarOf, freshId).status.Ok?
    ensures var r := Register(store, name, email, password, salt, crypto, avatarOf, freshId);
            Valid(r.state) && Login(r.state, email, password, crypto) == r.status
  {
    var r := Register(store, name, email, password, salt, crypto, avatarOf, freshId);
    RegisterKeepsValid(store, name, email, password, salt, crypto, avatarOf, freshId);
    var users := r.state.users;
    assert crypto.compare(password, crypto.hash(password, salt));
    assert users[freshId].email == email;
    var found := FindByEmail(users, email);
    assert found == Some(freshId);
  }

  /** The caller's account as `authUser` returns it: everything but the password. */
  datatype PublicUser = PublicUser(id: UserId, name: string, email: string, avatar: string)

  /**
   `authUser`: the caller's record without its password field, or nothing (the
   handler answers `null`) when the account no longer exists.
   */
  function CurrentUser(store: Store, caller: UserId): (r: Option<PublicUser>)
    ensures r.Some? <==> caller in store.users
    ensures r.Some? ==> var u := store.users[caller];
      r.value.id == u.id && r.value.name == u.name && r.value.email == u.email && r.value.avatar == u.avatar
  {
    if caller in store.users then
      var u := store.users[caller];
      Some(PublicUser(u.id, u.name, u.email, u.avatar))
    else
      None
  }

  /** The answer does not depend on the stored password hash at all. */
  lemma CurrentUserHidesPassword(store: Store, caller: UserId, other: string)
    requires caller in store.users
    ensures var s2 := store.(users := store.users[caller := store.users[caller].(password := other)]);
            CurrentUser(s2, caller) == CurrentUser(store, caller)
  {
  }

  /** After `deleteProfile` the account is gone for both lookups: the current
      user is nothing, and no login, with any email and password, yields the
      deleted id again. */
  lemma DeletedAccountIsGone(store: Store, caller: UserId, email: string, password: string, crypto: Crypto)
    requires Valid(store)
    ensures var after := DeleteProfile(store, caller).state;
            && CurrentUser(after, caller).None?
            && EmailsUnique(after.users)
            && Login(after, email, password, crypto) != Ok(Payload(TokenUser(caller)))
  {
    var after := DeleteProfile(store, caller).state;
    assert EmailsUnique(after.users) by {
      forall a, b | a in after.users && b in after.users && after.users[a].email == after.users[b].email
        ensures a == b
      {
        assert a in store.users && b in store.users;
      }
    }
    var r := Login(after, email, password, crypto);
    if r.Ok? {
      var k :| k in after.users && after.users[k].email == email
            && r.body == Payload(TokenUser(after.users[k].id));
      assert after.users[k] == store.users[k] && store.users[k].id == k;
    }
  }
}

=== FILE: base.dfy ===
/** Small shared datatypes. */
module Base {

  /** A value that may be absent: a field a request left out, a lookup that found nothing. */
  datatype Option<+T> = None | Some(value: T) {

    /** The carried value, or `default` when there is none. */
    function GetOr(default: T): (r: T)
      ensures Some? ==> r == value
      ensures None? ==> r == default
    {
      match this
      case Some(v) => v
      case None => default
    }
  }
}

=== FILE: js.dfy ===
/**
 The few JavaScript value semantics the handlers' guards depend on: which values
 are truthy, what `.length` of a primitive is, and how `v > 0` compares.
 */
module Js {

  /** The values a guard can see. Numbers are integers here; NaN and fractions are not needed. */
  datatype Value =
    | Undefined
    | Null
    | Bool(b: bool)
    | Number(n: int)
    | Str(s: string)
    | Array(length: nat)

  /** ToBoolean: `undefined`, `null`, `false`, `0` and `""` are falsy; every array,
      even an empty one, is an object and therefore truthy. */
  predicate Truthy(v: Value) {
    match v
    case Undefined => false
    case Null => false
    case Bool(b) => b
    case Number(n) => n != 0
    case Str(s) => s != ""
    case Array(_) => true
  }

  /** `v.length` for a value whose property can be read (reading a property of
      `undefined` or `null` throws). Booleans and numbers have no `length`. A
      string's length is counted in characters here, not in UTF-16 code units;
      no guard of the handlers reads it. */
  function Length(v: Value): (r: Value)
    requires !v.Undefined? && !v.Null?
    ensures r.Undefined? <==> v.Bool? || v.Number?
  {
    match v
    case Bool(_) => Undefined
    case Number(_) => Undefined
    case Str(s) => Number(|s|)
    case Array(n) => Number(n)
  }

  /** `v > 0` for a primitive: `undefined` converts to NaN, which compares false;
      a boolean converts to 0 or 1. */
  predicate GreaterThanZero(v: Value)
    requires v.Undefined? || v.Bool? || v.Number?
  {
    match v
    case Undefined => false
    case Bool(b) => b
    case Number(n) => n > 0
  }

  /** A boolean's `length` is never positive, whatever the boolean. */
  lemma BoolLengthNeverPositive(b: bool)
    ensures !GreaterThanZero(Length(Bool(b)))
  {
  }
}

=== FILE: lists.dfy ===
/**
 The two sequence operations every embedded-list mutation is built from:
 `filter` (keep the entries a callback accepts, in order) and `find` (the first
 entry a callback accepts), with the laws the handlers rely on.
 */
module Lists {
  import opened Base

  /** The entries of `s` that `keep` accepts, in their original order. */
  function Filter<T(!new)>(s: seq<T>, keep: T -> bool): (r: seq<T>)
    ensures |r| <= |s|
    ensures forall x :: x in r <==> x in s && keep(x)
    decreases |s|
  {
    if |s| == 0 then []
    else if keep(s[0]) then [s[0]] + Filter(s[1..], keep)
    else Filter(s[1..], keep)
  }

  /** Filtering distributes over concatenation: this is what "relative order is
      preserved" means for a filter. */
  lemma {:induction false} FilterAppend<T(!new)>(a: seq<T>, b: seq<T>, keep: T -> bool)
    ensures Filter(a + b, keep) == Filter(a, keep) + Filter(b, keep)
    decreases |a|
  {
    if |a| == 0 {
      assert a + b == b;
    } else {
      assert (a + b)[1..] == a[1..] + b;
      FilterAppend(a[1..], b, keep);
    }
  }

  /** A filter that accepts every entry returns the list unchanged. */
  lemma {:induction false} FilterKeepsAll<T(!new)>(s: seq<T>, keep: T -> bool)
    requires forall i :: 0 <= i < |s| ==> keep(s[i])
    ensures Filter(s, keep) == s
    decreases |s|
  {
    if |s| > 0 {
      FilterKeepsAll(s[1..], keep);
    }
  }

  /** A filter that rejects every entry returns the empty list. */
  lemma {:induction false} FilterDropsAll<T(!new)>(s: seq<T>, keep: T -> bool)
    requires forall i :: 0 <= i < |s| ==> !keep(s[i])
    ensures Filter(s, keep) == []
    decreases |s|
  {
    if |s| > 0 {
      FilterDropsAll(s[1..], keep);
    }
  }

  /** Filtering twice with the same callback is filtering once. */
  lemma FilterIdempotent<T(!new)>(s: seq<T>, keep: T -> bool)
    ensures Filter(Filter(s, keep), keep) == Filter(s, keep)
  {
    var r := Filter(s, keep);
    forall i | 0 <= i < |r|
      ensures keep(r[i])
    {
      assert r[i] in r;
    }
    FilterKeepsAll(r, keep);
  }

  /** The kept and the dropped entries together account for the whole list. */
  lemma {:induction false} FilterPartition<T(!new)>(s: seq<T>, keep: T -> bool)
    ensures |Filter(s, keep)| + |Filter(s, x => !keep(x))| == |s|
    decreases |s|
  {
    if |s| > 0 {
      FilterPartition(s[1..], keep);
    }
  }

  /** No two entries of `s` share a key. */
  ghost predicate DistinctBy<T(!new), K>(s: seq<T>, key: T -> K) {
    forall i, j :: 0 <= i < j < |s| ==> key(s[i]) != key(s[j])
  }

  /** Whether some entry of `s` has key `k`. */
  predicate HasKey<T, K(==)>(s: seq<T>, key: T -> K, k: K) {
    exists i :: 0 <= i < |s| && key(s[i]) == k
  }

  /** Putting an entry with a new key in front keeps the keys distinct. */
  lemma PrependDistinctBy<T(!new), K>(x: T, s: seq<T>, key: T -> K)
    requires DistinctBy(s, key)
    requires forall y :: y in s ==> key(y) != key(x)
    ensures DistinctBy([x] + s, key)
  {
    var t := [x] + s;
    forall i, j | 0 <= i < j < |t|
      ensures key(t[i]) != key(t[j])
    {
      if i == 0 {
        assert t[j] == s[j - 1] && t[j] in s;
      } else {
        assert t[i] == s[i - 1] && t[j] == s[j - 1];
      }
    }
  }

  /** A filter keeps distinct keys distinct. */
  lemma {:induction false} FilterDistinctBy<T(!new), K>(s: seq<T>, keep: T -> bool, key: T -> K)
    requires DistinctBy(s, key)
    ensures DistinctBy(Filter(s, keep), key)
    decreases |s|
  {
    if |s| > 0 {
      var tail := s[1..];
      assert DistinctBy(tail, key) by {
        forall i, j | 0 <= i < j < |tail|
          ensures key(tail[i]) != key(tail[j])
        {
          assert tail[i] == s[i + 1] && tail[j] == s[j + 1];
        }
      }
      FilterDistinctBy(tail, keep, key);
      if keep(s[0]) {
        forall y | y in Filter(tail, keep)
          ensures key(y) != key(s[0])
        {
          var j :| 0 <= j < |tail| && tail[j] == y;
          assert s[j + 1] == y;
        }
        PrependDistinctBy(s[0], Filter(tail, keep), key);
      }
    }
  }

  /** With distinct keys, dropping one present key removes exactly one entry. */
  lemma {:induction false} FilterOneKey<T(!new), K>(s: seq<T>, key: T -> K, k: K, keep: T -> bool)
    requires DistinctBy(s, key)
    requires forall x :: keep(x) <==> key(x) != k
    requires HasKey(s, key, k)
    ensures |Filter(s, keep)| == |s| - 1
    decreases |s|
  {
    var tail := s[1..];
    if key(s[0]) == k {
      forall i | 0 <= i < |tail|
        ensures keep(tail[i])
      {
        assert tail[i] == s[i + 1];
      }
      FilterKeepsAll(tail, keep);
    } else {
      assert DistinctBy(tail, key) by {
        forall i, j | 0 <= i < j < |tail|
          ensures key(tail[i]) != key(tail[j])
        {
          assert tail[i] == s[i + 1] && tail[j] == s[j + 1];
        }
      }
      var j :| 0 <= j < |s| && key(s[j]) == k;
      assert key(tail[j - 1]) == k;
      FilterOneKey(tail, key, k, keep);
    }
  }

  /**
   ECMAScript's Array.prototype.filter, step by step: walk the array once,
   pushing every element the callback accepts. It computes `Filter`.
   */
  method ArrayFilter<T(!new)>(a: seq<T>, callback: T -> bool) returns (kept: seq<T>)
    ensures kept == Filter(a, callback)
  {
    kept := [];
    var k := 0;
    while k < |a|
      invariant 0 <= k <= |a|
      invariant kept == Filter(a[..k], callback)
    {
      assert a[..k + 1] == a[..k] + [a[k]];
      FilterAppend(a[..k], [a[k]], callback);
      if callback(a[k]) {
        kept := kept + [a[k]];
      }
      k := k + 1;
    }
    assert a[..k] == a;
  }

  /** The position of the first entry `p` accepts, if any (Array.prototype.findIndex). */
  function FindIndex<T(!new)>(s: seq<T>, p: T -> bool): (r: Option<nat>)
    ensures r.Some? ==> r.value < |s| && p(s[r.value])
    ensures r.Some? ==> forall j :: 0 <= j < r.value ==> !p(s[j])
    ensures r.None? ==> forall j :: 0 <= j < |s| ==> !p(s[j])
    decreases |s|
  {
    if |s| == 0 then None
    else if p(s[0]) then Some(0)
    else
      match FindIndex(s[1..], p)
      case None => None
      case Some(i) => Some(i + 1)
  }

  /** The first entry `p` accepts, if any (Array.prototype.find). */
  function Find<T(!new)>(s: seq<T>, p: T -> bool): (r: Option<T>)
    ensures r.Some? <==> exists i :: 0 <= i < |s| && p(s[i])
    ensures r.Some? ==> r.value in s && p(r.value)
    ensures r.Some? ==>
      exists i :: 0 <= i < |s| && s[i] == r.value && forall j :: 0 <= j < i ==> !p(s[j])
  {
    match FindIndex(s, p)
    case None => None
    case Some(i) => Some(s[i])
  }
}

=== FILE: model.dfy ===
/**
 The documents of the social-profile API (users, profiles with their embedded
 experience and education lists, posts with their embedded likes and comments),
 the document store as three id-keyed maps, and the shape of every handler's reply.
 */
module Model {
  import opened Base
  import opened Lists

  type UserId = string
  type PostId = string
  /** The id of a document or embedded sub-document, as generated by the store. */
  type DocId = string

  /** The salt the hashing library generates for one password. */
  type Salt = string

  /** The password-hashing library, reduced to the two calls the handlers make:
      hash a password with a salt, and compare a password with a stored hash. */
  datatype Crypto = Crypto(hash: (string, Salt) -> string, compare: (string, string) -> bool)

  /** The one property the model assumes of the library: a password matches
      any hash made of it. */
  ghost predicate Sound(c: Crypto) {
    forall p, salt :: c.compare(p, c.hash(p, salt))
  }

  /** What a signed session token carries: `{user: {id}}` and nothing else. */
  datatype TokenUser = TokenUser(id: UserId)
  datatype Payload = Payload(user: TokenUser)

  /** A registered account. `password` holds the salted hash. */
  datatype User = User(id: UserId, name: string, email: string, password: string, avatar: string)

  /** The fields every embedded list entry shares: its generated id and its details. */
  datatype Entry<D> = Entry(id: DocId, details: D)

  /** What an experience entry is submitted with. */
  datatype ExperienceDetails = ExperienceDetails(
    title: string, company: string, location: Option<string>, from: string,
    to: Option<string>, current: Option<bool>, description: Option<string>)

  /** What an education entry is submitted with. */
  datatype EducationDetails = EducationDetails(
    school: string, degree: string, fieldOfStudy: string, from: string,
    to: Option<string>, current: Option<bool>, description: Option<string>)

  type Experience = Entry<ExperienceDetails>
  type Education = Entry<EducationDetails>

  /** The social-links sub-record of a profile. */
  datatype Social = Social(
    youtube: Option<string>, facebook: Option<string>, twitter: Option<string>,
    linkedin: Option<string>, instagram: Option<string>)

  const NoLinks := Social(None, None, None, None, None)

  /** A user's profile; `user` is its owner. New entries go to the front of the lists. */
  datatype Profile = Profile(
    id: DocId, user: UserId,
    company: Option<string>, website: Option<string>, location: Option<string>,
    bio: Option<string>, status: Option<string>, githubUser: Option<string>,
    skills: seq<string>, social: Social,
    experience: seq<Experience>, education: seq<Education>)

  /** A like is a presence marker for one user. */
  datatype Like = Like(user: UserId)

  /** A comment, with its author's name and avatar copied in when it was made. */
  datatype Comment = Comment(id: DocId, text: string, name: string, avatar: string, user: UserId, date: int)

  /** A post, with its author's name and avatar copied in when it was made. */
  datatype Post = Post(
    id: PostId, text: string, name: string, avatar: string, user: UserId, date: int,
    likes: seq<Like>, comments: seq<Comment>)

  /** The document store. Profiles are keyed by their owner, since every handler
      reaches a profile through its `user` field; users and posts by their own id. */
  datatype Store = Store(users: map<UserId, User>, profiles: map<UserId, Profile>, posts: map<PostId, Post>)

  /** How a handler answers: a body on success, or one of the error kinds. */
  datatype Status<T> =
    | Ok(body: T)
    | NotFound(msg: string)
    | Unauthorized(msg: string)
    | Invalid(msg: string)
    | ServerError

  /** A handler's answer together with the store as the handler leaves it. */
  datatype Reply<T> = Reply(status: Status<T>, state: Store)

  const PostNotFound := "Post not found"
  const CommentNotFound := "Comment not found"
  const NotAuthorized := "User not authorized"
  const AlreadyLiked := "Post already liked"
  const NotLikedYet := "Post not liked yet"
  const UserExists := "User already exists"
  const InvalidCredentials := "Invalid credentials"
  const PostDeleted := "Post deleted"
  const CommentDeleted := "Comment deleted"
  const ExperienceDeleted := "Experience deleted"
  const EducationDeleted := "Education deleted"
  const UserDeleted := "User deleted"

  /** The owner-only guard: a resource may be changed only by its owner. */
  predicate CanMutate(owner: UserId, caller: UserId) {
    owner == caller
  }

  function LikeUser(l: Like): UserId { l.user }
  function CommentId(c: Comment): DocId { c.id }
  function EntryId<D>(e: Entry<D>): DocId { e.id }

  /** Whether `caller` has a like among `likes`. */
  predicate HasLiked(likes: seq<Like>, caller: UserId) {
    HasKey(likes, LikeUser, caller)
  }

  /** No two accounts share an email address. */
  ghost predicate EmailsUnique(users: map<UserId, User>) {
    forall a, b :: a in users && b in users && users[a].email == users[b].email ==> a == b
  }

  /** At most one like per user, and comment ids distinct. */
  ghost predicate ValidPost(p: Post) {
    DistinctBy(p.likes, LikeUser) && DistinctBy(p.comments, CommentId)
  }

  /** Experience ids distinct, and education ids distinct, within a profile. */
  ghost predicate ValidProfile(p: Profile) {
    DistinctBy(p.experience, EntryId) && DistinctBy(p.education, EntryId)
  }

  /** Each account sits under its own id, and no two share an email. */
  ghost predicate UsersValid(users: map<UserId, User>) {
    (forall k :: k in users ==> users[k].id == k) && EmailsUnique(users)
  }

  /** Each profile sits under its owner (so a user has at most one profile), with
      distinct entry ids. */
  ghost predicate ProfilesValid(profiles: map<UserId, Profile>) {
    forall u :: u in profiles ==> profiles[u].user == u && ValidProfile(profiles[u])
  }

  /** Each post sits under its own id, with at most one like per user and
      distinct comment ids. */
  ghost predicate PostsValid(posts: map<PostId, Post>) {
    forall k :: k in posts ==> posts[k].id == k && ValidPost(posts[k])
  }

  /** The store invariant every handler keeps. */
  ghost predicate Valid(s: Store) {
    UsersValid(s.users) && ProfilesValid(s.profiles) && PostsValid(s.posts)
  }
}

=== FILE: posts.dfy ===
/**
 The post handlers (controllers/postController.js) with the evident intent of
 the like, unlike and comment-deletion guards; the code as written is modelled
 beside them in `PostsAsWritten`.
 */
module Posts {
  import opened Base
  import opened Lists
  import opened Model

  /** What the handler's `post` variable holds after `Post.findById`: awaited,
      the document or null; not awaited, the pending query object, which has no
      `likes` property. */
  datatype Binding = Pending | Missing | Found(post: Post)

  /** `await Post.findById(id)`; a malformed id is treated like an absent one. */
  function FindPost(store: Store, id: PostId): (b: Binding)
    ensures !b.Pending?
    ensures b.Found? <==> id in store.posts
    ensures b.Found? ==> b.post == store.posts[id]
  {
    if id in store.posts then Found(store.posts[id]) else Missing
  }

  function LikeNotBy(caller: UserId): Like -> bool {
    (l: Like) => l.user != caller
  }

  function CommentNotBy(caller: UserId): Comment -> bool {
    (c: Comment) => c.user != caller
  }

  function CommentIs(id: DocId): Comment -> bool {
    (c: Comment) => c.id == id
  }

  function CommentNot(id: DocId): Comment -> bool {
    (c: Comment) => c.id != id
  }

  /**
   `createPost`. The route demands non-empty text. The author's name and avatar
   are copied from the caller's account; without an account the handler
   dereferences null. `freshId` and `now` are the generated id and creation time.
   */
  function CreatePost(store: Store, caller: UserId, text: string, freshId: PostId, now: int): (r: Reply<Post>)
    requires text != ""
    ensures caller !in store.users || freshId in store.posts ==> r == Reply(ServerError, store)
    ensures caller in store.users && freshId !in store.posts ==>
      r.status.Ok? &&
      var p := r.status.body;
      var author := store.users[caller];
      && p.id == freshId && p.user == caller && p.text == text
      && p.name == author.name && p.avatar == author.avatar && p.date == now
      && p.likes == [] && p.comments == []
      && r.state.posts.Keys == store.posts.Keys + {freshId}
      && r.state.posts[freshId] == p
      && (forall k :: k in store.posts ==> r.state.posts[k] == store.posts[k])
      && r.state.users == store.users && r.state.profiles == store.profiles
  {
    if caller !in store.users || freshId in store.posts then
      Reply(ServerError, store)
    else
      var author := store.users[caller];
      var p := Post(freshId, text, author.name, author.avatar, caller, now, [], []);
      Reply(Ok(p), store.(posts := store.posts[freshId := p]))
  }

  /**
   `deletePost`: absence is reported before ownership is checked, and only the
   owner's request removes the post.
   */
  function DeletePost(store: Store, caller: UserId, postId: PostId): (r: Reply<string>)
    ensures postId !in store.posts ==> r == Reply(NotFound(PostNotFound), store)
    ensures postId in store.posts && !CanMutate(store.posts[postId].user, caller) ==>
      r == Reply(Unauthorized(NotAuthorized), store)
    ensures r.status.Ok? <==> postId in store.posts && store.posts[postId].user == caller
    ensures r.status.Ok? ==>
      && r.status.body == PostDeleted
      && r.state.posts.Keys == store.posts.Keys - {postId}
      && (forall k :: k in r.state.posts ==> r.state.posts[k] == store.posts[k])
      && r.state.users == store.users && r.state.profiles == store.profiles
  {
    if postId !in store.posts then
      Reply(NotFound(PostNotFound), store)
    else if !CanMutate(store.posts[postId].user, caller) then
      Reply(Unauthorized(NotAuthorized), store)
    else
      Reply(Ok(PostDeleted), store.(posts := store.posts - {postId}))
  }

  /**
   The `likePost` handler body, given how `post` was bound and how the
   already-liked test is decided. Reading `likes` of a pending query or of null
   throws, which the handler answers with a server error.
   */
  function LikeWith(store: Store, caller: UserId, postId: PostId, b: Binding,
                    liked: (seq<Like>, UserId) -> bool): (r: Reply<seq<Like>>)
    ensures !b.Found? ==> r == Reply(ServerError, store)
    ensures b.Found? && liked(b.post.likes, caller) ==> r == Reply(Invalid(AlreadyLiked), store)
    ensures r.status.Ok? <==> b.Found? && !liked(b.post.likes, caller)
    ensures r.status.Ok? ==>
      && r.status.body == [Like(caller)] + b.post.likes
      && r.state == store.(posts := store.posts[postId := b.post.(likes := r.status.body)])
  {
    match b
    case Pending => Reply(ServerError, store)
    case Missing => Reply(ServerError, store)
    case Found(p) =>
      if liked(p.likes, caller) then
        Reply(Invalid(AlreadyLiked), store)
      else
        var q := p.(likes := [Like(caller)] + p.likes);
        Reply(Ok(q.likes), store.(posts := store.posts[postId := q]))
  }

  /**
   The `unlikePost` handler body, given how `post` was bound and how the
   already-liked test is decided.
   */
  function UnlikeWith(store: Store, caller: UserId, postId: PostId, b: Binding,
                      liked: (seq<Like>, UserId) -> bool): (r: Reply<seq<Like>>)
    ensures !b.Found? ==> r == Reply(ServerError, store)
    ensures b.Found? && !liked(b.post.likes, caller) ==> r == Reply(Invalid(NotLikedYet), store)
    ensures r.status.Ok? <==> b.Found? && liked(b.post.likes, caller)
    ensures r.status.Ok? ==>
      && r.status.body == Filter(b.post.likes, LikeNotBy(caller))
      && r.state == store.(posts := store.posts[postId := b.post.(likes := r.status.body)])
  {
    match b
    case Pending => Reply(ServerError, store)
    case Missing => Reply(ServerError, store)
    case Found(p) =>
      if !liked(p.likes, caller) then
        Reply(Invalid(NotLikedYet), store)
      else
        var q := p.(likes := Filter(p.likes, LikeNotBy(caller)));
        Reply(Ok(q.likes), store.(posts := store.posts[postId := q]))
  }

  /**
   `likePost` as intended: the post is awaited and a second like by the same
   user is rejected. The handler has no not-found check, so a missing post is
   a null dereference.
   */
  function LikePost(store: Store, caller: UserId, postId: PostId): (r: Reply<seq<Like>>)
    ensures postId !in store.posts ==> r == Reply(ServerError, store)
    ensures postId in store.posts && HasLiked(store.posts[postId].likes, caller) ==>
      r == Reply(Invalid(AlreadyLiked), store)
    ensures r.status.Ok? <==> postId in store.posts && !HasLiked(store.posts[postId].likes, caller)
    ensures r.status.Ok? ==>
      var prev := store.posts[postId];
      var likes := r.status.body;
      && r.state == store.(posts := store.posts[postId := prev.(likes := likes)])
      && |likes| == |prev.likes| + 1
      && likes[0] == Like(caller)
      && likes[1..] == prev.likes
      && HasLiked(likes, caller)
  {
    var r := LikeWith(store, caller, postId, FindPost(store, postId), HasLiked);
    assert r.status.Ok? ==> HasLiked(r.status.body, caller) by {
      if r.status.Ok? {
        assert LikeUser(r.status.body[0]) == caller;
      }
    }
    r
  }

  /**
   `unlikePost` as intended: rejected when the caller has no like; otherwise
   every like by the caller is removed and the others keep their order.
   */
  function UnlikePost(store: Store, caller: UserId, postId: PostId): (r: Reply<seq<Like>>)
    ensures postId !in store.posts ==> r == Reply(ServerError, store)
    ensures postId in store.posts && !HasLiked(store.posts[postId].likes, caller) ==>
      r == Reply(Invalid(NotLikedYet), store)
    ensures r.status.Ok? <==> postId in store.posts && HasLiked(store.posts[postId].likes, caller)
    ensures r.status.Ok? ==>
      var prev := store.posts[postId];
      var likes := r.status.body;
      && r.state == store.(posts := store.posts[postId := prev.(likes := likes)])
      && likes == Filter(prev.likes, LikeNotBy(caller))
      && (forall l :: l in likes <==> l in prev.likes && l.user != caller)
      && !HasLiked(likes, caller)
      && |likes| < |prev.likes|
  {
    var r := UnlikeWith(store, caller, postId, FindPost(store, postId), HasLiked);
    assert r.status.Ok? ==> |r.status.body| < |store.posts[postId].likes| by {
      if r.status.Ok? {
        var prev := store.posts[postId].likes;
        var i :| 0 <= i < |prev| && LikeUser(prev[i]) == caller;
        FilterPartition(prev, LikeNotBy(caller));
        assert prev[i] in Filter(prev, x => !LikeNotBy(caller)(x));
      }
    }
    assert r.status.Ok? ==> !HasLiked(r.status.body, caller) by {
      if r.status.Ok? {
        var likes := r.status.body;
        forall i | 0 <= i < |likes|
          ensures LikeUser(likes[i]) != caller
        {
          assert likes[i] in likes;
        }
      }
    }
    r
  }

  /** Unliking keeps the other likes in their order: it acts on each part of the
      list separately. */
  lemma UnlikeKeepsOrder(a: seq<Like>, b: seq<Like>, caller: UserId)
    ensures Filter(a + b, LikeNotBy(caller)) == Filter(a, LikeNotBy(caller)) + Filter(b, LikeNotBy(caller))
  {
    FilterAppend(a, b, LikeNotBy(caller));
  }

  /** Dropping the caller's likes from a list with the caller's like in front,
      when the rest has none, gives back the rest. */
  lemma UnlikeFreshLike(likes: seq<Like>, caller: UserId)
    requires !HasLiked(likes, caller)
    ensures HasLiked([Like(caller)] + likes, caller)
    ensures Filter([Like(caller)] + likes, LikeNotBy(caller)) == likes
  {
    var liked := [Like(caller)] + likes;
    assert LikeUser(liked[0]) == caller;
    assert liked[1..] == likes;
    forall i | 0 <= i < |likes|
      ensures LikeNotBy(caller)(likes[i])
    {
      assert LikeUser(likes[i]) != caller;
    }
    FilterKeepsAll(likes, LikeNotBy(caller));
  }

  /** Round trip: when the caller had not liked the post, liking and then
      unliking restores the store, and the unlike answers with the original likes. */
  lemma LikeThenUnlike(store: Store, caller: UserId, postId: PostId)
    requires postId in store.posts && !HasLiked(store.posts[postId].likes, caller)
    ensures var liked := LikePost(store, caller, postId).state;
            UnlikePost(liked, caller, postId) == Reply(Ok(store.posts[postId].likes), store)
  {
    var prev := store.posts[postId];
    UnlikeFreshLike(prev.likes, caller);
    var liked := LikePost(store, caller, postId).state;
    assert liked.posts[postId] == prev.(likes := [Like(caller)] + prev.likes);
    assert liked.posts[postId := prev] == store.posts;
  }

  /**
   `createPostComment`. The route demands non-empty text. The comment carries
   the caller's name and avatar and goes to the front; without an account or
   without the post the handler dereferences null.
   */
  function CreateComment(store: Store, caller: UserId, postId: PostId, text: string,
                         freshId: DocId, now: int): (r: Reply<seq<Comment>>)
    requires text != ""
    ensures caller !in store.users || postId !in store.posts ==> r == Reply(ServerError, store)
    ensures caller in store.users && postId in store.posts ==>
      r.status.Ok? &&
      var prev := store.posts[postId];
      var author := store.users[caller];
      var comments := r.status.body;
      && r.state == store.(posts := store.posts[postId := prev.(comments := comments)])
      && |comments| == |prev.comments| + 1
      && comments[0] == Comment(freshId, text, author.name, author.avatar, caller, now)
      && comments[1..] == prev.comments
  {
    if caller !in store.users || postId !in store.posts then
      Reply(ServerError, store)
    else
      var author := store.users[caller];
      var prev := store.posts[postId];
      var c := Comment(freshId, text, author.name, author.avatar, caller, now);
      var q := prev.(comments := [c] + prev.comments);
      Reply(Ok(q.comments), store.(posts := store.posts[postId := q]))
  }

  /**
   `deletePostComment` as intended: the post must exist, the identified comment
   must exist, the caller must be that comment's author, and only that comment
   is removed.
   */
  function DeleteComment(store: Store, caller: UserId, postId: PostId, commentId: DocId): (r: Reply<string>)
    ensures postId !in store.posts ==> r == Reply(NotFound(PostNotFound), store)
    ensures postId in store.posts && !HasKey(store.posts[postId].comments, CommentId, commentId) ==>
      r == Reply(NotFound(CommentNotFound), store)
    ensures postId in store.posts ==>
      var found := Find(store.posts[postId].comments, CommentIs(commentId));
      && (found.Some? ==> found.value.id == commentId)
      && (found.Some? && !CanMutate(found.value.user, caller) ==> r == Reply(Unauthorized(NotAuthorized), store))
      && (r.status.Ok? <==> found.Some? && found.value.user == caller)
    ensures r.status.Ok? ==>
      postId in store.posts && postId in r.state.posts &&
      var prev := store.posts[postId];
      var comments := r.state.posts[postId].comments;
      && r.status.body == CommentDeleted
      && r.state == store.(posts := store.posts[postId := prev.(comments := comments)])
      && comments == Filter(prev.comments, CommentNot(commentId))
      && (forall c :: c in comments <==> c in prev.comments && c.id != commentId)
  {
    if postId !in store.posts then
      Reply(NotFound(PostNotFound), store)
    else
      var prev := store.posts[postId];
      var found := Find(prev.comments, CommentIs(commentId));
      assert found.None? ==> !HasKey(prev.comments, CommentId, commentId) by {
        if found.None? {
          forall i | 0 <= i < |prev.comments|
            ensures CommentId(prev.comments[i]) != commentId
          {
            assert !CommentIs(commentId)(prev.comments[i]);
          }
        }
      }
      assert found.Some? ==> HasKey(prev.comments, CommentId, commentId) by {
        if found.Some? {
          var i :| 0 <= i < |prev.comments| && prev.comments[i] == found.value;
          assert CommentId(prev.comments[i]) == commentId;
        }
      }
      match found
      case None => Reply(NotFound(CommentNotFound), store)
      case Some(c) =>
        if !CanMutate(c.user, caller) then
          Reply(Unauthorized(NotAuthorized), store)
        else
          var q := prev.(comments := Filter(prev.comments, CommentNot(commentId)));
          Reply(Ok(CommentDeleted), store.(posts := store.posts[postId := q]))
  }

  /** With distinct comment ids, an authorised deletion removes exactly one comment. */
  lemma DeleteCommentRemovesOne(store: Store, caller: UserId, postId: PostId, commentId: DocId)
    requires Valid(store)
    requires DeleteComment(store, caller, postId, commentId).status.Ok?
    ensures |DeleteComment(store, caller, postId, commentId).state.posts[postId].comments|
         == |store.posts[postId].comments| - 1
  {
    var prev := store.posts[postId].comments;
    var found := Find(prev, CommentIs(commentId));
    var i :| 0 <= i < |prev| && prev[i] == found.value;
    assert CommentId(prev[i]) == commentId;
    FilterOneKey(prev, CommentId, commentId, CommentNot(commentId));
  }

  /** Creating and deleting posts keeps the store invariant. */
  lemma PostLifecycleKeepsValid(store: Store, caller: UserId, postId: PostId, text: string,
                                freshId: PostId, now: int)
    requires Valid(store)
    requires text != ""
    ensures Valid(CreatePost(store, caller, text, freshId, now).state)
    ensures Valid(DeletePost(store, caller, postId).state)
  {
  }

  /** Liking and unliking keep at most one like per user on every post. */
  lemma LikesKeepValid(store: Store, caller: UserId, postId: PostId)
    requires Valid(store)
    ensures Valid(LikePost(store, caller, postId).state)
    ensures Valid(UnlikePost(store, caller, postId).state)
  {
    if postId in store.posts {
      var prev := store.posts[postId];
      if LikePost(store, caller, postId).status.Ok? {
        PrependDistinctBy(Like(caller), prev.likes, LikeUser);
      }
      FilterDistinctBy(prev.likes, LikeNotBy(caller), LikeUser);
    }
  }

  /** Commenting (under an id no comment of that post has) and deleting a
      comment keep comment ids distinct. */
  lemma CommentsKeepValid(store: Store, caller: UserId, postId: PostId, text: string,
                          freshId: DocId, now: int, commentId: DocId)
    requires Valid(store)
    requires text != ""
    ensures Valid(DeleteComment(store, caller, postId, commentId).state)
    ensures postId in store.posts && !HasKey(store.posts[postId].comments, CommentId, freshId) ==>
      Valid(CreateComment(store, caller, postId, text, freshId, now).state)
  {
    if postId in store.posts {
      var prev := store.posts[postId];
      FilterDistinctBy(prev.comments, CommentNot(commentId), CommentId);
      if caller in store.users && !HasKey(prev.comments, CommentId, freshId) {
        var c := CreateComment(store, caller, postId, text, freshId, now).status.body[0];
        PrependDistinctBy(c, prev.comments, CommentId);
      }
    }
  }
}

=== FILE: posts_as_written.dfy ===
/**
 The like, unlike and comment-deletion handlers of controllers/postController.js
 exactly as written, and the inputs on which each departs from the intended
 behaviour modelled in `Posts`.
 */
module PostsAsWritten {
  import opened Base
  import opened Lists
  import opened Model
  import opened Posts
  import Js

  /** The filter callback `(like) => (like.user.toString() === req.user.id).length > 0`:
      it takes the length of a boolean, which is undefined, and compares it with 0. */
  function LikeTestAsWritten(caller: UserId): (test: Like -> bool)
    ensures forall l :: !test(l)
  {
    (l: Like) => Js.GreaterThanZero(Js.Length(Js.Bool(l.user == caller)))
  }

  /** The guard value `isAlreadyLiked`: the filtered array, used as a condition.
      It holds whatever the likes and the caller. */
  function LikedAsWritten(likes: seq<Like>, caller: UserId): (liked: bool)
    ensures liked
  {
    Js.Truthy(Js.Array(|Filter(likes, LikeTestAsWritten(caller))|))
  }

  /** The literal test never matches, so the filter is always empty; an empty
      array is still truthy, so the guard always holds. */
  lemma LikeGuardAsWritten(likes: seq<Like>, caller: UserId)
    ensures Filter(likes, LikeTestAsWritten(caller)) == []
    ensures LikedAsWritten(likes, caller)
  {
    forall i | 0 <= i < |likes|
      ensures !LikeTestAsWritten(caller)(likes[i])
    {
      Js.BoolLengthNeverPositive(likes[i].user == caller);
    }
    FilterDropsAll(likes, LikeTestAsWritten(caller));
  }

  /** `likePost` as written: `post` is the pending query, whose `likes` is
      undefined, so `post.likes.filter` throws on every request. */
  function LikeAsWritten(store: Store, caller: UserId, postId: PostId): (r: Reply<seq<Like>>)
    ensures r == Reply(ServerError, store)
  {
    LikeWith(store, caller, postId, Pending, LikedAsWritten)
  }

  /** `likePost` with the query awaited but the guard as written: every existing
      post is reported as already liked. */
  function LikeAwaited(store: Store, caller: UserId, postId: PostId): (r: Reply<seq<Like>>)
    ensures postId !in store.posts ==> r == Reply(ServerError, store)
    ensures postId in store.posts ==> r == Reply(Invalid(AlreadyLiked), store)
  {
    LikeGuardAsWritten(if postId in store.posts then store.posts[postId].likes else [], caller);
    LikeWith(store, caller, postId, FindPost(store, postId), LikedAsWritten)
  }

  /** `unlikePost` as written: the same un-awaited query, so it always throws. */
  function UnlikeAsWritten(store: Store, caller: UserId, postId: PostId): (r: Reply<seq<Like>>)
    ensures r == Reply(ServerError, store)
  {
    UnlikeWith(store, caller, postId, Pending, LikedAsWritten)
  }

  /** `unlikePost` with the query awaited but the guard as written: "not liked
      yet" is never reported, and the filter runs whether or not a like exists. */
  function UnlikeAwaited(store: Store, caller: UserId, postId: PostId): (r: Reply<seq<Like>>)
    ensures postId !in store.posts ==> r == Reply(ServerError, store)
    ensures postId in store.posts ==>
      var prev := store.posts[postId];
      var likes := Filter(prev.likes, LikeNotBy(caller));
      r == Reply(Ok(likes), store.(posts := store.posts[postId := prev.(likes := likes)]))
  {
    LikeGuardAsWritten(if postId in store.posts then store.posts[postId].likes else [], caller);
    UnlikeWith(store, caller, postId, FindPost(store, postId), LikedAsWritten)
  }

  /** Defect at line 86: a first like on an existing post, which the intended
      handler records, fails with a server error as written. */
  lemma LikeNeverAwaited(store: Store, caller: UserId, postId: PostId)
    requires postId in store.posts && !HasLiked(store.posts[postId].likes, caller)
    ensures LikePost(store, caller, postId).status.Ok?
    ensures LikeAsWritten(store, caller, postId).status == ServerError
  {
  }

  /** Defect at line 106: removing an existing like, which the intended handler
      does, fails with a server error as written. */
  lemma UnlikeNeverAwaited(store: Store, caller: UserId, postId: PostId)
    requires postId in store.posts && HasLiked(store.posts[postId].likes, caller)
    ensures UnlikePost(store, caller, postId).status.Ok?
    ensures UnlikeAsWritten(store, caller, postId).status == ServerError
  {
  }

  /** Defect at line 88: even once awaited, the literal guard rejects a first like. */
  lemma LikeGuardRejectsFirstLike(store: Store, caller: UserId, postId: PostId)
    requires postId in store.posts && !HasLiked(store.posts[postId].likes, caller)
    ensures LikePost(store, caller, postId).status.Ok?
    ensures LikeAwaited(store, caller, postId).status == Invalid(AlreadyLiked)
  {
  }

  /** Defect at line 108: even once awaited, the literal guard accepts an unlike
      of a post the caller never liked, answering success where the intended
      handler answers "not liked yet". */
  lemma UnlikeGuardAcceptsMissingLike(store: Store, caller: UserId, postId: PostId)
    requires postId in store.posts && !HasLiked(store.posts[postId].likes, caller)
    ensures UnlikePost(store, caller, postId) == Reply(Invalid(NotLikedYet), store)
    ensures UnlikeAwaited(store, caller, postId).status.Ok?
  {
  }

  /** The find callback `(comment) => (comment.id = req.params.comment_id)`: an
      assignment, whose value is the assigned id, truthy whenever it is non-empty. */
  function CommentTestAsWritten(commentId: DocId): (test: Comment -> bool)
    ensures forall c :: test(c) <==> commentId != ""
  {
    (c: Comment) => Js.Truthy(Js.Str(commentId))
  }

  /**
   `deletePostComment` as written: post lookup, then the assignment-as-test
   lookup (which matches the first comment whenever there is one), then a check
   against the POST's author, then removal of every comment the caller wrote.
   */
  function DeleteCommentAsWritten(store: Store, caller: UserId, postId: PostId, commentId: DocId): (r: Reply<string>)
    ensures postId !in store.posts ==> r == Reply(NotFound(PostNotFound), store)
    ensures postId in store.posts ==>
      var prev := store.posts[postId];
      && (r.status == NotFound(CommentNotFound) <==> prev.comments == [] || commentId == "")
      && (prev.comments == [] || commentId == "" ==> r == Reply(NotFound(CommentNotFound), store))
      && (prev.comments != [] && commentId != "" && !CanMutate(prev.user, caller) ==>
            r == Reply(Unauthorized(NotAuthorized), store))
      && (r.status.Ok? <==> prev.comments != [] && commentId != "" && prev.user == caller)
    ensures r.status.Ok? ==>
      postId in store.posts && postId in r.state.posts &&
      var prev := store.posts[postId];
      var comments := r.state.posts[postId].comments;
      && r.status.body == CommentDeleted
      && r.state == store.(posts := store.posts[postId := prev.(comments := comments)])
      && comments == Filter(prev.comments, CommentNotBy(caller))
      && (forall c :: c in comments <==> c in prev.comments && c.user != caller)
  {
    if postId !in store.posts then
      Reply(NotFound(PostNotFound), store)
    else
      var prev := store.posts[postId];
      var found := Find(prev.comments, CommentTestAsWritten(commentId));
      assert found.Some? <==> prev.comments != [] && commentId != "" by {
        if prev.comments != [] && commentId != "" {
          assert CommentTestAsWritten(commentId)(prev.comments[0]);
        }
      }
      if found.None? then
        Reply(NotFound(CommentNotFound), store)
      else if !CanMutate(prev.user, caller) then
        Reply(Unauthorized(NotAuthorized), store)
      else
        var q := prev.(comments := Filter(prev.comments, CommentNotBy(caller)));
        Reply(Ok(CommentDeleted), store.(posts := store.posts[postId := q]))
  }

  /** Defect at line 163: with an id no comment has, the intended handler says
      "Comment not found", but as written the first comment matches and the
      post's owner goes on to delete. */
  lemma CommentLookupMatchesAnyId(store: Store, caller: UserId, postId: PostId, commentId: DocId)
    requires postId in store.posts && store.posts[postId].user == caller
    requires store.posts[postId].comments != [] && commentId != ""
    requires !HasKey(store.posts[postId].comments, CommentId, commentId)
    ensures DeleteComment(store, caller, postId, commentId) == Reply(NotFound(CommentNotFound), store)
    ensures DeleteCommentAsWritten(store, caller, postId, commentId).status == Ok(CommentDeleted)
  {
  }

  /** Defect at line 171: the author of a comment on someone else's post may
      delete it as intended, but is refused as written. */
  lemma CommentAuthorRefused(store: Store, caller: UserId, postId: PostId, c: Comment)
    requires postId in store.posts && store.posts[postId].user != caller
    requires store.posts[postId].comments == [c] && c.user == caller && c.id != ""
    ensures DeleteComment(store, caller, postId, c.id).status == Ok(CommentDeleted)
    ensures DeleteCommentAsWritten(store, caller, postId, c.id) == Reply(Unauthorized(NotAuthorized), store)
  {
    assert CommentIs(c.id)(c);
  }

  /** Defect at line 171, other side: the post's owner may delete a comment
      someone else wrote as written, which the intended handler refuses. */
  lemma PostOwnerDeletesOthersComment(store: Store, caller: UserId, postId: PostId, c: Comment)
    requires postId in store.posts && store.posts[postId].user == caller
    requires store.posts[postId].comments == [c] && c.user != caller && c.id != ""
    ensures DeleteComment(store, caller, postId, c.id) == Reply(Unauthorized(NotAuthorized), store)
    ensures DeleteCommentAsWritten(store, caller, postId, c.id).status == Ok(CommentDeleted)
  {
    assert CommentIs(c.id)(c);
  }

  /** Defect at lines 175-177: deleting one of two comments the caller wrote on
      their own post removes both as written, but only the identified one as
      intended. */
  lemma CommentDeletionRemovesAllByCaller(store: Store, caller: UserId, postId: PostId, c1: Comment, c2: Comment)
    requires postId in store.posts && store.posts[postId].user == caller
    requires store.posts[postId].comments == [c1, c2]
    requires c1.user == caller && c2.user == caller && c1.id != c2.id && c1.id != ""
    ensures DeleteComment(store, caller, postId, c1.id).state.posts[postId].comments == [c2]
    ensures DeleteCommentAsWritten(store, caller, postId, c1.id).state.posts[postId].comments == []
  {
    var s := [c1, c2];
    assert CommentIs(c1.id)(c1);
    assert s[1..] == [c2] && [c2][1..] == [];
    assert Filter(s, CommentNot(c1.id)) == [c2];
    assert Filter(s, CommentNotBy(caller)) == [];
  }
}

=== FILE: profiles.dfy ===
/**
 The profile handlers (controllers/profileController.js): build the sparse
 field set from a submission and create or `$set`-merge the caller's profile;
 prepend and delete experience and education entries; delete an account.
 */
module Profiles {
  import opened Base
  import opened Lists
  import opened Text
  import opened Model

  /** The request body of a profile submission. A field the client left out
      is the empty string here: both are falsy, and the handler treats them alike. */
  datatype ProfileRequest = ProfileRequest(
    company: string, website: string, location: string, bio: string,
    status: string, githubUser: string, skills: string,
    youtube: string, facebook: string, twitter: string, linkedin: string, instagram: string)

  /** The field set handed to the store. `social` is always there. */
  datatype ProfileFields = ProfileFields(
    user: UserId,
    company: Option<string>, website: Option<string>, location: Option<string>,
    bio: Option<string>, status: Option<string>, githubUser: Option<string>,
    skills: Option<seq<string>>, social: Social)

  /** `o` is present exactly when the submitted string is truthy (non-empty),
      and then holds it. */
  ghost predicate Present(o: Option<string>, submitted: string) {
    (o.Some? <==> submitted != "") && (o.Some? ==> o.value == submitted)
  }

  /** The social record holds exactly the truthy submitted links. */
  ghost predicate LinksOf(social: Social, req: ProfileRequest) {
    && Present(social.youtube, req.youtube)
    && Present(social.facebook, req.facebook)
    && Present(social.twitter, req.twitter)
    && Present(social.linkedin, req.linkedin)
    && Present(social.instagram, req.instagram)
  }

  /** `if (value) fields.x = value`. */
  function IfTruthy(value: string): (r: Option<string>)
    ensures Present(r, value)
  {
    if value != "" then Some(value) else None
  }

  /** The skills string split on commas, each piece trimmed: one skill per
      piece, in the submitted order. */
  function ParseSkills(s: string): (r: seq<string>)
    ensures |r| == Count(s, ',') + 1
    ensures |r| == |Split(s, ',')|
    ensures forall i :: 0 <= i < |r| ==> r[i] == Trim(Split(s, ',')[i])
    ensures forall i :: 0 <= i < |r| ==> Trimmed(r[i])
  {
    var parts := Split(s, ',');
    seq(|parts|, i requires 0 <= i < |parts| => Trim(parts[i]))
  }

  /** Trimming a comma-free string leaves it comma-free. */
  lemma TrimKeepsCommaFree(p: string)
    requires ',' !in p
    ensures ',' !in Trim(p)
  {
    TrimIsPaddedInfix(p);
    var a, b :| Padded(p, a, b) && Trim(p) == p[a..b];
    assert forall k :: 0 <= k < |Trim(p)| ==> Trim(p)[k] == p[a + k];
  }

  /** No parsed skill contains a comma: each is an infix of a comma-free piece. */
  lemma ParsedSkillsCommaFree(s: string)
    ensures forall i :: 0 <= i < |ParseSkills(s)| ==> ',' !in ParseSkills(s)[i]
  {
    var parts := Split(s, ',');
    var r := ParseSkills(s);
    forall i | 0 <= i < |r|
      ensures ',' !in r[i]
    {
      TrimKeepsCommaFree(parts[i]);
    }
  }

  /** Round trip: a list of trimmed, comma-free skills joined with commas parses
      back to the same list. */
  lemma ParseJoinedSkills(skills: seq<string>)
    requires |skills| > 0
    requires forall i :: 0 <= i < |skills| ==> Trimmed(skills[i]) && ',' !in skills[i]
    ensures ParseSkills(Join(skills, ',')) == skills
  {
    forall i | 0 <= i < |skills|
      ensures Trim(skills[i]) == skills[i]
    {
      TrimKeepsTrimmed(skills[i]);
    }
    JoinThenSplit(skills, ',');
    ParsePiecewise(Join(skills, ','), skills, skills);
  }

  /** A skill name: non-empty, without a comma, without surrounding whitespace. */
  predicate SkillName(s: string) {
    |s| > 0 && ',' !in s && Trimmed(s)
  }

  /** A submission parses to `skills` when it splits into pieces that trim,
      one by one, to `skills`. */
  lemma ParsePiecewise(s: string, parts: seq<string>, skills: seq<string>)
    requires Split(s, ',') == parts
    requires |parts| == |skills|
    requires forall i :: 0 <= i < |parts| ==> Trim(parts[i]) == skills[i]
    ensures ParseSkills(s) == skills
  {
    var r := ParseSkills(s);
    assert |r| == |skills|;
    assert forall i :: 0 <= i < |r| ==> r[i] == skills[i];
  }

  /** A padded skill name has no comma and trims to the name. */
  lemma PaddedPiece(pre: string, skill: string, post: string)
    requires Trimmed(skill) && ',' !in skill && AllSpace(pre) && AllSpace(post)
    ensures ',' !in pre + skill + post
    ensures Trim(pre + skill + post) == skill
  {
    assert !IsSpace(',');
    TrimPadded(pre, skill, post);
  }

  /** Skill names with whitespace around them, joined with commas, parse back
      to the names: the padding the user typed is dropped. */
  lemma ParsePadded(skills: seq<string>, pre: seq<string>, padded: seq<string>, post: seq<string>)
    requires |skills| > 0 && |pre| == |skills| && |padded| == |skills| && |post| == |skills|
    requires forall i :: 0 <= i < |skills| ==> Trimmed(skills[i]) && ',' !in skills[i]
    requires forall i :: 0 <= i < |skills| ==> AllSpace(pre[i]) && AllSpace(post[i])
    requires forall i :: 0 <= i < |skills| ==> padded[i] == pre[i] + skills[i] + post[i]
    ensures ParseSkills(Join(padded, ',')) == skills
  {
    forall i | 0 <= i < |padded|
      ensures ',' !in padded[i] && Trim(padded[i]) == skills[i]
    {
      PaddedPiece(pre[i], skills[i], post[i]);
    }
    JoinThenSplit(padded, ',');
    ParsePiecewise(Join(padded, ','), padded, skills);
  }

  /** For any three skill names, `"a, b,c "` parses to `[a, b, c]`, in the
      submitted order and without the spaces typed around them. */
  lemma ParseSkillsExample(a: string, b: string, c: string)
    requires SkillName(a) && SkillName(b) && SkillName(c)
    ensures ParseSkills(a + ", " + b + "," + c + " ") == [a, b, c]
  {
    var padded := [a, " " + b, c + " "];
    assert Join(padded[2..], ',') == c + " ";
    assert Join(padded[1..], ',') == " " + b + [','] + (c + " ");
    assert Join(padded, ',') == a + [','] + (" " + b + [','] + (c + " "));
    assert a + [','] + (" " + b + [','] + (c + " ")) == a + ", " + b + "," + c + " ";
    assert AllSpace(" ");
    assert AllSpace("");
    ParsePadded([a, b, c], ["", " ", ""], padded, ["", "", " "]);
  }

  /** The field set `createProfile` builds from the caller's id and the request. */
  function BuildFields(caller: UserId, req: ProfileRequest): (f: ProfileFields)
    ensures f.user == caller
    ensures Present(f.company, req.company) && Present(f.website, req.website)
    ensures Present(f.location, req.location) && Present(f.bio, req.bio)
    ensures Present(f.status, req.status) && Present(f.githubUser, req.githubUser)
    ensures f.skills.Some? <==> req.skills != ""
    ensures f.skills.Some? ==> f.skills.value == ParseSkills(req.skills)
    ensures LinksOf(f.social, req)
  {
    ProfileFields(
      caller,
      IfTruthy(req.company), IfTruthy(req.website), IfTruthy(req.location),
      IfTruthy(req.bio), IfTruthy(req.status), IfTruthy(req.githubUser),
      if req.skills != "" then Some(ParseSkills(req.skills)) else None,
      Social(IfTruthy(req.youtube), IfTruthy(req.facebook), IfTruthy(req.twitter),
             IfTruthy(req.linkedin), IfTruthy(req.instagram)))
  }

  /** After `$set`, a field holds the set's value when the set has one, and its
      stored value otherwise. */
  ghost predicate Overlaid<T>(now: Option<T>, before: Option<T>, given: Option<T>) {
    (given.Some? ==> now == given) && (given.None? ==> now == before)
  }

  /** One scalar under `$set`. */
  function Overlay<T>(before: Option<T>, given: Option<T>): (now: Option<T>)
    ensures Overlaid(now, before, given)
  {
    if given.Some? then given else before
  }

  /** `$set`: a field present in the set replaces the stored one, an absent field
      leaves it alone; `social` and `user` are always in the set. The document id
      and the embedded lists are not touched. */
  function SetFields(p: Profile, f: ProfileFields): (r: Profile)
    ensures r.id == p.id && r.experience == p.experience && r.education == p.education
    ensures r.user == f.user && r.social == f.social
    ensures Overlaid(r.company, p.company, f.company) && Overlaid(r.website, p.website, f.website)
    ensures Overlaid(r.location, p.location, f.location) && Overlaid(r.bio, p.bio, f.bio)
    ensures Overlaid(r.status, p.status, f.status) && Overlaid(r.githubUser, p.githubUser, f.githubUser)
    ensures f.skills.Some? ==> r.skills == f.skills.value
    ensures f.skills.None? ==> r.skills == p.skills
  {
    Profile(p.id, f.user,
            Overlay(p.company, f.company), Overlay(p.website, f.website),
            Overlay(p.location, f.location), Overlay(p.bio, f.bio),
            Overlay(p.status, f.status), Overlay(p.githubUser, f.githubUser),
            if f.skills.Some? then f.skills.value else p.skills,
            f.social, p.experience, p.education)
  }

  /** A new profile document made from the field set alone: fields absent from
      the set are absent, skills default to none, and the lists start empty. */
  function NewProfile(id: DocId, f: ProfileFields): (r: Profile)
    ensures r.id == id && r.user == f.user && r.social == f.social
    ensures Overlaid(r.company, None, f.company) && Overlaid(r.website, None, f.website)
    ensures Overlaid(r.location, None, f.location) && Overlaid(r.bio, None, f.bio)
    ensures Overlaid(r.status, None, f.status) && Overlaid(r.githubUser, None, f.githubUser)
    ensures f.skills.Some? ==> r.skills == f.skills.value
    ensures f.skills.None? ==> r.skills == []
    ensures r.experience == [] && r.education == []
  {
    Profile(id, f.user, f.company, f.website, f.location, f.bio, f.status, f.githubUser,
            f.skills.GetOr([]), f.social, [], [])
  }

  /** A scalar after a merge: the submitted value when truthy, else the stored one. */
  ghost predicate Merged(now: Option<string>, before: Option<string>, submitted: string) {
    if submitted != "" then now == Some(submitted) else now == before
  }

  /** `p` is `prev` updated in place by the submission. */
  ghost predicate UpdatedBy(p: Profile, prev: Profile, req: ProfileRequest) {
    && p.id == prev.id && p.experience == prev.experience && p.education == prev.education
    && Merged(p.company, prev.company, req.company) && Merged(p.website, prev.website, req.website)
    && Merged(p.location, prev.location, req.location) && Merged(p.bio, prev.bio, req.bio)
    && Merged(p.githubUser, prev.githubUser, req.githubUser)
  }

  /** `p` is a new profile made from the submission alone. */
  ghost predicate CreatedBy(p: Profile, id: DocId, req: ProfileRequest) {
    && p.id == id && p.experience == [] && p.education == []
    && Present(p.company, req.company) && Present(p.website, req.website)
    && Present(p.location, req.location) && Present(p.bio, req.bio)
    && Present(p.githubUser, req.githubUser)
  }

  /** `$set` of a submission's field set is a merge into the stored profile. */
  lemma SetFieldsMerges(prev: Profile, caller: UserId, req: ProfileRequest)
    requires req.status != "" && req.skills != ""
    ensures var p := SetFields(prev, BuildFields(caller, req));
            && p.user == caller && p.status == Some(req.status)
            && p.skills == ParseSkills(req.skills) && LinksOf(p.social, req)
            && UpdatedBy(p, prev, req)
  {
  }

  /** A new profile made from a submission's field set holds just the submission. */
  lemma NewProfileFromRequest(id: DocId, caller: UserId, req: ProfileRequest)
    requires req.status != "" && req.skills != ""
    ensures var p := NewProfile(id, BuildFields(caller, req));
            && p.user == caller && p.status == Some(req.status)
            && p.skills == ParseSkills(req.skills) && LinksOf(p.social, req)
            && CreatedBy(p, id, req)
  {
  }

  /** Whether some stored profile already has document id `id`. */
  predicate ProfileIdTaken(profiles: map<UserId, Profile>, id: DocId) {
    exists u :: u in profiles && profiles[u].id == id
  }

  /**
   `createProfile`. The route demands a non-empty status and skills. An existing
   profile of the caller is updated in place; otherwise one new profile is
   created with the store-generated id `freshId` (a colliding id is rejected by
   the store's unique-id index).
   */
  function CreateProfile(store: Store, caller: UserId, req: ProfileRequest, freshId: DocId): (r: Reply<Profile>)
    requires req.status != "" && req.skills != ""
    ensures r.status.Ok? <==> caller in store.profiles || !ProfileIdTaken(store.profiles, freshId)
    ensures !r.status.Ok? ==> r == Reply(ServerError, store)
    ensures r.status.Ok? ==>
      && caller in r.state.profiles && r.status.body == r.state.profiles[caller]
      && r.state.profiles.Keys == store.profiles.Keys + {caller}
      && (forall u :: u in store.profiles && u != caller ==> r.state.profiles[u] == store.profiles[u])
      && r.state.users == store.users && r.state.posts == store.posts
    ensures r.status.Ok? ==>
      var p := r.status.body;
      && p.user == caller
      && p.status == Some(req.status)
      && p.skills == ParseSkills(req.skills)
      && LinksOf(p.social, req)
      && (caller in store.profiles ==> UpdatedBy(p, store.profiles[caller], req))
      && (caller !in store.profiles ==> CreatedBy(p, freshId, req))
  {
    var fields := BuildFields(caller, req);
    if caller in store.profiles then
      var p := SetFields(store.profiles[caller], fields);
      SetFieldsMerges(store.profiles[caller], caller, req);
      Reply(Ok(p), store.(profiles := store.profiles[caller := p]))
    else if ProfileIdTaken(store.profiles, freshId) then
      Reply(ServerError, store)
    else
      var p := NewProfile(freshId, fields);
      NewProfileFromRequest(freshId, caller, req);
      Reply(Ok(p), store.(profiles := store.profiles[caller := p]))
  }

  /** Create-or-update keeps the store invariant, so a user never has two profiles. */
  lemma CreateProfileKeepsValid(store: Store, caller: UserId, req: ProfileRequest, freshId: DocId)
    requires Valid(store)
    requires req.status != "" && req.skills != ""
    ensures Valid(CreateProfile(store, caller, req, freshId).state)
  {
    var r := CreateProfile(store, caller, req, freshId);
    if r.status.Ok? {
      var p := r.status.body;
      assert ValidProfile(p) by {
        if caller in store.profiles {
          assert p.experience == store.profiles[caller].experience;
          assert p.education == store.profiles[caller].education;
        }
      }
      assert r.state == store.(profiles := store.profiles[caller := p]);
    }
  }

  /** Resubmitting a profile without links drops every stored link, because
      `social` is rebuilt and set whole, while scalars left out keep their
      stored values. A merge with an otherwise empty submission is therefore
      not the identity when links were stored. */
  lemma ResubmitWithoutLinks(store: Store, caller: UserId, req: ProfileRequest, freshId: DocId)
    requires caller in store.profiles
    requires req.status != "" && req.skills != ""
    requires req.company == "" && req.website == "" && req.location == "" && req.bio == "" && req.githubUser == ""
    requires req.youtube == "" && req.facebook == "" && req.twitter == "" && req.linkedin == "" && req.instagram == ""
    ensures var p := CreateProfile(store, caller, req, freshId).state.profiles[caller];
            var prev := store.profiles[caller];
            && p.social == NoLinks
            && p.company == prev.company && p.website == prev.website && p.location == prev.location
            && p.bio == prev.bio && p.githubUser == prev.githubUser
  {
  }

  // Embedded entries ---------------------------------------------------------

  /** The callback of `filter((e) => e.id !== id)`. */
  function EntryNot<D(!new)>(id: DocId): Entry<D> -> bool {
    (e: Entry<D>) => e.id != id
  }

  /** The entries whose id is not `id`, in their original order. */
  function RemoveEntry<D(!new)>(s: seq<Entry<D>>, id: DocId): (r: seq<Entry<D>>)
    ensures forall e :: e in r <==> e in s && e.id != id
    ensures !HasKey(s, EntryId, id) ==> r == s
  {
    var r := Filter(s, EntryNot(id));
    assert !HasKey(s, EntryId, id) ==> r == s by {
      if !HasKey(s, EntryId, id) {
        FilterKeepsAll(s, EntryNot(id));
      }
    }
    r
  }

  /** Removal respects order: it acts on each part of a list separately. */
  lemma RemoveEntryKeepsOrder<D(!new)>(a: seq<Entry<D>>, b: seq<Entry<D>>, id: DocId)
    ensures RemoveEntry(a + b, id) == RemoveEntry(a, id) + RemoveEntry(b, id)
  {
    FilterAppend(a, b, EntryNot(id));
  }

  /** Removing the same id twice is removing it once. */
  lemma RemoveEntryIdempotent<D(!new)>(s: seq<Entry<D>>, id: DocId)
    ensures RemoveEntry(RemoveEntry(s, id), id) == RemoveEntry(s, id)
  {
    FilterIdempotent(s, EntryNot(id));
  }

  /** Removing the id of an entry just put in front, when no older entry has
      it, gives back the older list. */
  lemma RemoveNewEntry<D(!new)>(e: Entry<D>, s: seq<Entry<D>>)
    requires !HasKey(s, EntryId, e.id)
    ensures RemoveEntry([e] + s, e.id) == s
  {
    assert ([e] + s)[1..] == s;
    assert !EntryNot(e.id)(e);
    assert Filter([e] + s, EntryNot(e.id)) == Filter(s, EntryNot(e.id));
    assert RemoveEntry(s, e.id) == s;
    assert RemoveEntry([e] + s, e.id) == Filter([e] + s, EntryNot(e.id));
  }

  /**
   `updateProfileExperience`. The route demands title, company and from date.
   Without a profile the handler dereferences null and answers with a server
   error. `freshId` is the id the store gives the new entry.
   */
  function AddExperience(store: Store, caller: UserId, details: ExperienceDetails, freshId: DocId): (r: Reply<Profile>)
    requires details.title != "" && details.company != "" && details.from != ""
    ensures caller !in store.profiles ==> r == Reply(ServerError, store)
    ensures caller in store.profiles ==>
      var prev := store.profiles[caller];
      r.status.Ok? &&
      var p := r.status.body;
      && r.state == store.(profiles := store.profiles[caller := p])
      && p == prev.(experience := p.experience)
      && |p.experience| == |prev.experience| + 1
      && p.experience[0] == Entry(freshId, details)
      && p.experience[1..] == prev.experience
  {
    if caller !in store.profiles then
      Reply(ServerError, store)
    else
      var prev := store.profiles[caller];
      var p := prev.(experience := [Entry(freshId, details)] + prev.experience);
      Reply(Ok(p), store.(profiles := store.profiles[caller := p]))
  }

  /**
   `deleteExperience`: keep the caller's experience entries whose id is not
   `expId`. Without a profile the handler dereferences null.
   */
  function DeleteExperience(store: Store, caller: UserId, expId: DocId): (r: Reply<string>)
    ensures caller !in store.profiles ==> r == Reply(ServerError, store)
    ensures caller in store.profiles ==>
      var prev := store.profiles[caller];
      caller in r.state.profiles &&
      var p := r.state.profiles[caller];
      && r.status == Ok(ExperienceDeleted)
      && r.state == store.(profiles := store.profiles[caller := p])
      && p == prev.(experience := p.experience)
      && p.experience == RemoveEntry(prev.experience, expId)
      && (forall e :: e in p.experience <==> e in prev.experience && e.id != expId)
      && (!HasKey(prev.experience, EntryId, expId) ==> p == prev)
  {
    if caller !in store.profiles then
      Reply(ServerError, store)
    else
      var prev := store.profiles[caller];
      var p := prev.(experience := RemoveEntry(prev.experience, expId));
      Reply(Ok(ExperienceDeleted), store.(profiles := store.profiles[caller := p]))
  }

  /** Deleting the same experience twice leaves the store as deleting it once. */
  lemma DeleteExperienceIdempotent(store: Store, caller: UserId, expId: DocId)
    ensures var once := DeleteExperience(store, caller, expId).state;
            DeleteExperience(once, caller, expId).state == once
  {
    if caller in store.profiles {
      RemoveEntryIdempotent(store.profiles[caller].experience, expId);
    }
  }

  /** Round trip: deleting an experience entry just added (under an id no older
      entry had) restores the store. */
  lemma AddThenDeleteExperience(store: Store, caller: UserId, details: ExperienceDetails, freshId: DocId)
    requires details.title != "" && details.company != "" && details.from != ""
    requires caller in store.profiles
    requires !HasKey(store.profiles[caller].experience, EntryId, freshId)
    ensures DeleteExperience(AddExperience(store, caller, details, freshId).state, caller, freshId).state == store
  {
    var prev := store.profiles[caller];
    RemoveNewEntry(Entry(freshId, details), prev.experience);
    assert store.profiles[caller := prev] == store.profiles;
  }

  /**
   `updateProfileEducation`. The route demands school, degree, field of study
   and from date. Without a profile the handler dereferences null.
   */
  function AddEducation(store: Store, caller: UserId, details: EducationDetails, freshId: DocId): (r: Reply<Profile>)
    requires details.school != "" && details.degree != "" && details.fieldOfStudy != "" && details.from != ""
    ensures caller !in store.profiles ==> r == Reply(ServerError, store)
    ensures caller in store.profiles ==>
      var prev := store.profiles[caller];
      r.status.Ok? &&
      var p := r.status.body;
      && r.state == store.(profiles := store.profiles[caller := p])
      && p == prev.(education := p.education)
      && |p.education| == |prev.education| + 1
      && p.education[0] == Entry(freshId, details)
      && p.education[1..] == prev.education
  {
    if caller !in store.profiles then
      Reply(ServerError, store)
    else
      var prev := store.profiles[caller];
      var p := prev.(education := [Entry(freshId, details)] + prev.education);
      Reply(Ok(p), store.(profiles := store.profiles[caller := p]))
  }

  /**
   `deleteEducation`: keep the caller's education entries whose id is not
   `educationId`. Without a profile the handler dereferences null.
   */
  function DeleteEducation(store: Store, caller: UserId, educationId: DocId): (r: Reply<string>)
    ensures caller !in store.profiles ==> r == Reply(ServerError, store)
    ensures caller in store.profiles ==>
      var prev := store.profiles[caller];
      caller in r.state.profiles &&
      var p := r.state.profiles[caller];
      && r.status == Ok(EducationDeleted)
      && r.state == store.(profiles := store.profiles[caller := p])
      && p == prev.(education := p.education)
      && p.education == RemoveEntry(prev.education, educationId)
      && (forall e :: e in p.education <==> e in prev.education && e.id != educationId)
      && (!HasKey(prev.education, EntryId, educationId) ==> p == prev)
  {
    if caller !in store.profiles then
      Reply(ServerError, store)
    else
      var prev := store.profiles[caller];
      var p := prev.(education := RemoveEntry(prev.education, educationId));
      Reply(Ok(EducationDeleted), store.(profiles := store.profiles[caller := p]))
  }

  /** Deleting the same education entry twice leaves the store as deleting it once. */
  lemma DeleteEducationIdempotent(store: Store, caller: UserId, educationId: DocId)
    ensures var once := DeleteEducation(store, caller, educationId).state;
            DeleteEducation(once, caller, educationId).state == once
  {
    if caller in store.profiles {
      RemoveEntryIdempotent(store.profiles[caller].education, educationId);
    }
  }

  /** Round trip: deleting an education entry just added restores the store. */
  lemma AddThenDeleteEducation(store: Store, caller: UserId, details: EducationDetails, freshId: DocId)
    requires details.school != "" && details.degree != "" && details.fieldOfStudy != "" && details.from != ""
    requires caller in store.profiles
    requires !HasKey(store.profiles[caller].education, EntryId, freshId)
    ensures DeleteEducation(AddEducation(store, caller, details, freshId).state, caller, freshId).state == store
  {
    var prev := store.profiles[caller];
    RemoveNewEntry(Entry(freshId, details), prev.education);
    assert store.profiles[caller := prev] == store.profiles;
  }

  /**
   `deleteProfile`: remove the caller's profile and account. Either may already
   be gone. The caller's posts stay where they are.
   */
  function DeleteProfile(store: Store, caller: UserId): (r: Reply<string>)
    ensures r.status == Ok(UserDeleted)
    ensures caller !in r.state.profiles && caller !in r.state.users
    ensures forall u :: u != caller ==>
      && (u in r.state.profiles <==> u in store.profiles)
      && (u in r.state.profiles ==> r.state.profiles[u] == store.profiles[u])
      && (u in r.state.users <==> u in store.users)
      && (u in r.state.users ==> r.state.users[u] == store.users[u])
    ensures r.state.posts == store.posts
  {
    Reply(Ok(UserDeleted), Store(store.users - {caller}, store.profiles - {caller}, store.posts))
  }

  /** Adding an experience entry under an id no entry of the caller's profile
      has, and deleting one, keep the store invariant. */
  lemma ExperienceKeepsValid(store: Store, caller: UserId, details: ExperienceDetails, freshId: DocId, expId: DocId)
    requires Valid(store)
    requires details.title != "" && details.company != "" && details.from != ""
    ensures caller in store.profiles && !HasKey(store.profiles[caller].experience, EntryId, freshId) ==>
      Valid(AddExperience(store, caller, details, freshId).state)
    ensures Valid(DeleteExperience(store, caller, expId).state)
  {
    if caller in store.profiles {
      var prev := store.profiles[caller];
      FilterDistinctBy(prev.experience, EntryNot(expId), EntryId);
      if !HasKey(prev.experience, EntryId, freshId) {
        PrependDistinctBy(Entry(freshId, details), prev.experience, EntryId);
      }
    }
  }

  /** Adding an education entry under a fresh id, and deleting one, keep the
      store invariant. */
  lemma EducationKeepsValid(store: Store, caller: UserId, details: EducationDetails, freshId: DocId, educationId: DocId)
    requires Valid(store)
    requires details.school != "" && details.degree != "" && details.fieldOfStudy != "" && details.from != ""
    ensures caller in store.profiles && !HasKey(store.profiles[caller].education, EntryId, freshId) ==>
      Valid(AddEducation(store, caller, details, freshId).state)
    ensures Valid(DeleteEducation(store, caller, educationId).state)
  {
    if caller in store.profiles {
      var prev := store.profiles[caller];
      FilterDistinctBy(prev.education, EntryNot(educationId), EntryId);
      if !HasKey(prev.education, EntryId, freshId) {
        PrependDistinctBy(Entry(freshId, details), prev.education, EntryId);
      }
    }
  }

  /** Deleting an account keeps the store invariant. */
  lemma DeleteProfileKeepsValid(store: Store, caller: UserId)
    requires Valid(store)
    ensures Valid(DeleteProfile(store, caller).state)
  {
  }
}

=== FILE: scenario.dfy ===
/**
 One request sequence across the handlers: a new user registers, submits a
 profile, then adds an experience entry; the stored profile ends up with that
 single entry and the parsed skills.
 */
module Scenario {
  import opened Base
  import opened Model
  import opened Text
  import opened Users
  import opened Profiles

  const Empty := Store(map[], map[], map[])

  /** Any two skill names submitted as `"first, second"` parse to `[first, second]`. */
  lemma ParseTwoSkills(first: string, second: string)
    requires SkillName(first) && SkillName(second)
    ensures ParseSkills(first + ", " + second) == [first, second]
  {
    var padded := [first, " " + second];
    assert Join(padded[1..], ',') == " " + second;
    assert Join(padded, ',') == first + [','] + (" " + second);
    assert first + [','] + (" " + second) == first + ", " + second;
    assert AllSpace(" ") && AllSpace("");
    ParsePadded([first, second], ["", " "], padded, ["", ""]);
  }

  /** Step one: the first registration on an empty store succeeds, answers with
      the new id and creates no profile. */
  lemma RegisterFirst(name: string, email: string, password: string, salt: Salt,
                      crypto: Crypto, avatarOf: string -> string, userId: UserId)
    requires name != "" && |password| >= 6
    ensures var r := Register(Empty, name, email, password, salt, crypto, avatarOf, userId);
            && r.status == Ok(Payload(TokenUser(userId)))
            && r.state.users.Keys == {userId}
            && r.state.profiles == map[]
  {
    assert !EmailTaken(Empty.users, email);
  }

  /** Step two: a first profile submission on a store without profiles creates
      exactly one profile, with no experience yet. */
  lemma FirstProfile(store: Store, caller: UserId, req: ProfileRequest, profileId: DocId)
    requires store.profiles == map[]
    requires req.status != "" && req.skills != ""
    ensures var r := CreateProfile(store, caller, req, profileId);
            && r.status.Ok?
            && r.state.profiles.Keys == {caller}
            && r.state.profiles[caller].experience == []
            && r.state.profiles[caller].skills == ParseSkills(req.skills)
  {
    assert !ProfileIdTaken(store.profiles, profileId);
  }

  /** Step three: an experience entry added to a profile without experience is
      its only entry, and the rest of the profile is as it was. */
  lemma FirstExperience(store: Store, caller: UserId, details: ExperienceDetails, expId: DocId)
    requires details.title != "" && details.company != "" && details.from != ""
    requires caller in store.profiles && store.profiles[caller].experience == []
    ensures var r := AddExperience(store, caller, details, expId);
            && r.status.Ok?
            && r.state.profiles.Keys == store.profiles.Keys
            && r.state.profiles[caller] == store.profiles[caller].(experience := [Entry(expId, details)])
  {
    assert [Entry(expId, details)] + [] == [Entry(expId, details)];
  }

  /** Register, create a profile with skills `"first, second"`, add one
      experience entry: every step succeeds, and the only profile has exactly
      that entry and skills `[first, second]`. */
  lemma RegisterProfileExperience(crypto: Crypto, avatarOf: string -> string, salt: Salt,
                                  userId: UserId, profileId: DocId, expId: DocId,
                                  first: string, second: string, details: ExperienceDetails)
    requires SkillName(first) && SkillName(second)
    requires details.title != "" && details.company != "" && details.from != ""
    ensures var r1 := Register(Empty, "A", "a@example.com", "secret1", salt, crypto, avatarOf, userId);
            var req := ProfileRequest("", "", "", "", "Developer", "", first + ", " + second, "", "", "", "", "");
            var r2 := CreateProfile(r1.state, userId, req, profileId);
            var r3 := AddExperience(r2.state, userId, details, expId);
            && r1.status == Ok(Payload(TokenUser(userId)))
            && r2.status.Ok? && r3.status.Ok?
            && r3.state.profiles.Keys == {userId}
            && r3.state.profiles[userId].experience == [Entry(expId, details)]
            && r3.state.profiles[userId].skills == [first, second]
  {
    var r1 := Register(Empty, "A", "a@example.com", "secret1", salt, crypto, avatarOf, userId);
    RegisterFirst("A", "a@example.com", "secret1", salt, crypto, avatarOf, userId);
    var req := ProfileRequest("", "", "", "", "Developer", "", first + ", " + second, "", "", "", "", "");
    FirstProfile(r1.state, userId, req, profileId);
    ParseTwoSkills(first, second);
    var r2 := CreateProfile(r1.state, userId, req, profileId);
    FirstExperience(r2.state, userId, details, expId);
  }
}

=== FILE: text.dfy ===
/**
 String handling used when a profile's skills are submitted as one
 comma-separated string: `split` on a separator and ECMAScript `trim`.
 */
module Text {

  /** The characters ECMAScript's `String.prototype.trim` strips: the WhiteSpace
      and LineTerminator productions (tab, vertical tab, form feed, space,
      no-break space, byte-order mark, the Unicode space separators, line feed,
      carriage return, line and paragraph separators). */
  predicate IsSpace(c: char) {
    || c == '\t' || c == '\U{0B}' || c == '\U{0C}' || c == ' ' || c == '\U{A0}'
    || c == '\U{FEFF}' || c == '\U{1680}' || ('\U{2000}' <= c <= '\U{200A}')
    || c == '\U{202F}' || c == '\U{205F}' || c == '\U{3000}'
    || c == '\n' || c == '\r' || c == '\U{2028}' || c == '\U{2029}'
  }

  ghost predicate AllSpace(s: string) {
    forall i :: 0 <= i < |s| ==> IsSpace(s[i])
  }

  /** `s[i..j]` is an infix of `s` with only whitespace around it. */
  ghost predicate Padded(s: string, i: int, j: int) {
    0 <= i <= j <= |s| && AllSpace(s[..i]) && AllSpace(s[j..])
  }

  /** Neither end of `s` is whitespace. */
  predicate Trimmed(s: string) {
    |s| == 0 || (!IsSpace(s[0]) && !IsSpace(s[|s| - 1]))
  }

  /** `s` without its leading whitespace. */
  function TrimStart(s: string): (r: string)
    ensures |r| <= |s| && r == s[|s| - |r|..]
    ensures |r| == 0 || !IsSpace(r[0])
    decreases |s|
  {
    if |s| > 0 && IsSpace(s[0]) then TrimStart(s[1..]) else s
  }

  /** What `TrimStart` drops is whitespace only. */
  lemma {:induction false} TrimStartDropsSpace(s: string)
    ensures AllSpace(s[..|s| - |TrimStart(s)|])
    decreases |s|
  {
    if |s| > 0 && IsSpace(s[0]) {
      TrimStartDropsSpace(s[1..]);
      var k := |s| - |TrimStart(s)|;
      assert s[..k] == [s[0]] + s[1..][..k - 1];
    }
  }

  /** `s` without its trailing whitespace. */
  function TrimEnd(s: string): (r: string)
    ensures |r| <= |s| && r == s[..|r|]
    ensures |r| == 0 || !IsSpace(r[|r| - 1])
    decreases |s|
  {
    if |s| > 0 && IsSpace(s[|s| - 1]) then TrimEnd(s[..|s| - 1]) else s
  }

  /** What `TrimEnd` drops is whitespace only. */
  lemma {:induction false} TrimEndDropsSpace(s: string)
    ensures AllSpace(s[|TrimEnd(s)|..])
    decreases |s|
  {
    if |s| > 0 && IsSpace(s[|s| - 1]) {
      var t := s[..|s| - 1];
      TrimEndDropsSpace(t);
      var k := |TrimEnd(s)|;
      assert s[k..] == t[k..] + [s[|s| - 1]];
    }
  }

  /** `String.prototype.trim`: `s` without whitespace at either end. */
  function Trim(s: string): (r: string)
    ensures Trimmed(r)
    ensures |r| <= |s|
  {
    var a := TrimStart(s);
    var r := TrimEnd(a);
    assert |r| == 0 || r[0] == a[0];
    r
  }

  /** `trim` keeps the infix of `s` that has only whitespace around it. */
  lemma TrimIsPaddedInfix(s: string)
    ensures exists i, j :: Padded(s, i, j) && Trim(s) == s[i..j]
  {
    var a := TrimStart(s);
    var r := TrimEnd(a);
    TrimStartDropsSpace(s);
    TrimEndDropsSpace(a);
    var i := |s| - |a|;
    var j := i + |r|;
    assert r == s[i..j];
    assert s[j..] == a[|r|..];
    assert Padded(s, i, j);
  }

  /** A string that is already trimmed is left as it is. */
  lemma TrimKeepsTrimmed(s: string)
    requires Trimmed(s)
    ensures Trim(s) == s
  {
  }

  /** Whitespace in front of `s` does not change where `TrimStart` stops. */
  lemma {:induction false} TrimStartSkipsSpace(pad: string, s: string)
    requires AllSpace(pad)
    ensures TrimStart(pad + s) == TrimStart(s)
    decreases |pad|
  {
    if |pad| == 0 {
      assert pad + s == s;
    } else {
      assert (pad + s)[0] == pad[0] && IsSpace(pad[0]);
      assert (pad + s)[1..] == pad[1..] + s;
      assert AllSpace(pad[1..]) by {
        forall k | 0 <= k < |pad| - 1 ensures IsSpace(pad[1..][k]) {
          assert pad[1..][k] == pad[k + 1];
        }
      }
      TrimStartSkipsSpace(pad[1..], s);
    }
  }

  /** Whitespace after `s` does not change where `TrimEnd` stops. */
  lemma {:induction false} TrimEndSkipsSpace(s: string, pad: string)
    requires AllSpace(pad)
    ensures TrimEnd(s + pad) == TrimEnd(s)
    decreases |pad|
  {
    if |pad| == 0 {
      assert s + pad == s;
    } else {
      var t := s + pad;
      var rest := pad[..|pad| - 1];
      assert t[|t| - 1] == pad[|pad| - 1] && IsSpace(pad[|pad| - 1]);
      assert t[..|t| - 1] == s + rest;
      assert AllSpace(rest) by {
        forall k | 0 <= k < |rest| ensures IsSpace(rest[k]) {
          assert rest[k] == pad[k];
        }
      }
      TrimEndSkipsSpace(s, rest);
    }
  }

  /** `trim` strips any whitespace padding around a trimmed string: the converse
      of `TrimIsPaddedInfix`. */
  lemma TrimPadded(pre: string, s: string, post: string)
    requires AllSpace(pre) && AllSpace(post) && Trimmed(s)
    ensures Trim(pre + s + post) == s
  {
    var t := pre + s + post;
    assert t == pre + (s + post);
    TrimStartSkipsSpace(pre, s + post);
    if |s| == 0 {
      assert s + post == post + s;
      TrimStartSkipsSpace(post, s);
      assert TrimStart(t) == s;
    } else {
      assert (s + post)[0] == s[0];
      assert TrimStart(s + post) == s + post;
      TrimEndSkipsSpace(s, post);
      assert TrimEnd(TrimStart(t)) == s;
    }
    assert Trim(t) == TrimEnd(TrimStart(t));
  }

  /** Trimming is idempotent. */
  lemma TrimIdempotent(s: string)
    ensures Trim(Trim(s)) == Trim(s)
  {
    TrimKeepsTrimmed(Trim(s));
  }

  /** The number of occurrences of `c` in `s`. */
  function Count(s: string, c: char): (n: nat)
    ensures n <= |s|
    ensures n == 0 <==> c !in s
    decreases |s|
  {
    if |s| == 0 then 0 else (if s[0] == c then 1 else 0) + Count(s[1..], c)
  }

  /** `String.prototype.split(sep)` for a one-character separator: the pieces
      between separators, left to right, always at least one. */
  function Split(s: string, sep: char): (r: seq<string>)
    ensures |r| == Count(s, sep) + 1
    ensures forall i :: 0 <= i < |r| ==> sep !in r[i]
    decreases |s|
  {
    if |s| == 0 then [""]
    else
      var rest := Split(s[1..], sep);
      if s[0] == sep then [""] + rest
      else [[s[0]] + rest[0]] + rest[1..]
  }

  /** `Array.prototype.join(sep)` of a non-empty list of pieces. */
  function Join(parts: seq<string>, sep: char): string
    requires |parts| > 0
    decreases |parts|
  {
    if |parts| == 1 then parts[0] else parts[0] + [sep] + Join(parts[1..], sep)
  }

  /** Joining the pieces of a split gives back the original string. */
  lemma {:induction false} SplitThenJoin(s: string, sep: char)
    ensures Join(Split(s, sep), sep) == s
    decreases |s|
  {
    if |s| > 0 {
      var rest := Split(s[1..], sep);
      SplitThenJoin(s[1..], sep);
      if s[0] == sep {
        assert Split(s, sep) == [""] + rest;
        assert ([""] + rest)[1..] == rest;
      } else {
        var r := Split(s, sep);
        assert r == [[s[0]] + rest[0]] + rest[1..];
        if |rest| == 1 {
          assert Join(r, sep) == [s[0]] + rest[0];
        } else {
          assert r[1..] == rest[1..];
          assert Join(rest, sep) == rest[0] + [sep] + Join(rest[1..], sep);
          assert Join(r, sep) == [s[0]] + rest[0] + [sep] + Join(rest[1..], sep);
        }
      }
    }
  }

  /** A string without the separator splits into itself alone. */
  lemma {:induction false} SplitWithoutSeparator(s: string, sep: char)
    requires sep !in s
    ensures Split(s, sep) == [s]
    decreases |s|
  {
    if |s| > 0 {
      assert sep !in s[1..];
      SplitWithoutSeparator(s[1..], sep);
      assert [s[0]] + s[1..] == s;
    }
  }

  /** Splitting at the first separator peels off the piece before it. */
  lemma {:induction false} SplitAtFirst(a: string, sep: char, b: string)
    requires sep !in a
    ensures Split(a + [sep] + b, sep) == [a] + Split(b, sep)
    decreases |a|
  {
    var s := a + [sep] + b;
    if |a| == 0 {
      assert s[1..] == b;
    } else {
      assert s[1..] == a[1..] + [sep] + b;
      assert sep !in a[1..];
      SplitAtFirst(a[1..], sep, b);
      assert [a[0]] + a[1..] == a;
    }
  }

  /** Splitting a join of separator-free pieces gives back the pieces. */
  lemma {:induction false} JoinThenSplit(parts: seq<string>, sep: char)
    requires |parts| > 0
    requires forall i :: 0 <= i < |parts| ==> sep !in parts[i]
    ensures Split(Join(parts, sep), sep) == parts
    decreases |parts|
  {
    if |parts| == 1 {
      SplitWithoutSeparator(parts[0], sep);
    } else {
      JoinThenSplit(parts[1..], sep);
      SplitAtFirst(parts[0], sep, Join(parts[1..], sep));
      assert [parts[0]] + parts[1..] == parts;
    }
  }
}

=== FILE: users.dfy ===
/**
 Registration (controllers/userController.js): reject a taken email, otherwise
 store a new account with a hashed password and answer with a token payload.
 */
module Users {
  import opened Model

  /** Whether some account already uses `email` (the handler's `User.findOne({email})`). */
  predicate EmailTaken(users: map<UserId, User>, email: string) {
    exists k :: k in users && users[k].email == email
  }

  /**
   `registerUser`. The route demands a non-empty name and a password of at
   least six characters. `salt` is what the library's salt generator produced,
   `avatarOf` is the avatar-URL library applied to the email with fixed options,
   and `freshId` is the id the store generates for the new account; should it
   collide with an existing one, the store's unique-id index rejects the save.
   */
  function Register(store: Store, name: string, email: string, password: string, salt: Salt,
                    crypto: Crypto, avatarOf: string -> string, freshId: UserId): (r: Reply<Payload>)
    requires name != ""
    requires |password| >= 6
    ensures EmailTaken(store.users, email) ==> r == Reply(Invalid(UserExists), store)
    ensures r.status.Ok? <==> !EmailTaken(store.users, email) && freshId !in store.users
    ensures !r.status.Ok? ==> r.state == store
    ensures freshId in store.users && !EmailTaken(store.users, email) ==> r == Reply(ServerError, store)
    ensures r.status.Ok? ==>
      && r.status.body == Payload(TokenUser(freshId))
      && freshId !in store.users
      && r.state.users.Keys == store.users.Keys + {freshId}
      && |r.state.users| == |store.users| + 1
      && (forall k :: k in store.users ==> r.state.users[k] == store.users[k])
      && r.state.users[freshId].id == freshId
      && r.state.users[freshId].name == name
      && r.state.users[freshId].email == email
      && r.state.users[freshId].avatar == avatarOf(email)
      && r.state.users[freshId].password == crypto.hash(password, salt)
      && r.state.profiles == store.profiles
      && r.state.posts == store.posts
  {
    if EmailTaken(store.users, email) then
      Reply(Invalid(UserExists), store)
    else if freshId in store.users then
      Reply(ServerError, store)
    else
      var user := User(freshId, name, email, crypto.hash(password, salt), avatarOf(email));
      Reply(Ok(Payload(TokenUser(user.id))), store.(users := store.users[freshId := user]))
  }

  /** Adding an account under a new id with an email no account uses keeps the
      accounts valid. */
  lemma AddUserKeepsUsersValid(users: map<UserId, User>, user: User)
    requires UsersValid(users)
    requires user.id !in users && !EmailTaken(users, user.email)
    ensures UsersValid(users[user.id := user])
  {
    var after := users[user.id := user];
    forall a, b | a in after && b in after && after[a].email == after[b].email
      ensures a == b
    {
      if a != b && (a == user.id || b == user.id) {
        assert false;
      }
    }
  }

  /** Registration keeps the store invariant; in particular no two accounts
      ever share an email. */
  lemma RegisterKeepsValid(store: Store, name: string, email: string, password: string, salt: Salt,
                           crypto: Crypto, avatarOf: string -> string, freshId: UserId)
    requires Valid(store)
    requires name != "" && |password| >= 6
    ensures Valid(Register(store, name, email, password, salt, crypto, avatarOf, freshId).state)
  {
    if !EmailTaken(store.users, email) && freshId !in store.users {
      var user := User(freshId, name, email, crypto.hash(password, salt), avatarOf(email));
      AddUserKeepsUsersValid(store.users, user);
      assert Register(store, name, email, password, salt, crypto, avatarOf, freshId).state
          == store.(users := store.users[freshId := user]);
    }
  }

  /** The avatar depends on the email alone: two successful registrations with
      the same email get the same avatar, whatever names and passwords they used. */
  lemma AvatarFromEmailOnly(s1: Store, s2: Store, name1: string, name2: string, email: string,
                            pw1: string, pw2: string, salt1: Salt, salt2: Salt,
                            crypto: Crypto, avatarOf: string -> string, id1: UserId, id2: UserId)
    requires name1 != "" && name2 != "" && |pw1| >= 6 && |pw2| >= 6
    requires !EmailTaken(s1.users, email) && id1 !in s1.users
    requires !EmailTaken(s2.users, email) && id2 !in s2.users
    ensures Register(s1, name1, email, pw1, salt1, crypto, avatarOf, id1).state.users[id1].avatar
         == Register(s2, name2, email, pw2, salt2, crypto, avatarOf, id2).state.users[id2].avatar
  {
  }
}
